=== FILE: README.md ===
# Circuit relay v1 negotiation and WebRTC signalling, modelled in Dafny

This project models the core of a js-libp2p fork:

- the circuit relay v1 negotiation:
  - the length-prefixed stream handler;
  - address validation;
  - `handleHop`, `hop`, `canHop` and `handleCanHop`;
  - `handleStop` and `stop`;
- the WebRTC signalling transport: its start and stop, the relay's routing of signalling messages, `dial`'s address handling, `filter`, and the listener;
- `AutoSignal`;
- the compound content router.

Everything is written as pure functions over immutable values, and methods without side effects. Anything the code reaches outside itself becomes a parameter:

| parameter | stands for |
|---|---|
| `parses` | whether a byte string parses as a multiaddr |
| `connectionsTo` | the connection manager's lookup |
| `peerIdOf` | taking the peer id out of a multiaddr string |
| `listens` | whether the transport manager manages to listen |
| `protoBook` | the peer store's protocol book |
| `Remote` | what the far end of a freshly opened stream answers |
| `drained` | the outcome of draining the DHT's own `put` |
| `events`, `failure` | what a DHT query yields, and the error it throws after that, if any |

Modules, one per source unit:

| module | models |
|---|---|
| `Varint` | the unsigned LEB128 length prefix of a frame |
| `RelayMessage` | the `CircuitRelay` message |
| `MessageCodec` | a stand-in codec for that message, with a proved round trip |
| `StreamHandler` | the framed channel of `stream-handler.ts`: phases Framed, then Rested, then Closed |
| `CircuitUtils` | `utils.ts` |
| `CircuitStop` | `stop.ts` |
| `CircuitHop` | `hop.ts` |
| `SignalAddrs` | multiaddr text, JavaScript `split`/`includes`, and the address `filter` |
| `SignalTransport` | `transport.ts` |
| `SignalListener` | `listener.ts` |
| `AutoSignal` | `webrtc-signal/index.ts` |
| `ContentRouting` | `content-routing/index.ts` |

The main results:

- **Framing round trip.** Every message whose encoding fits the frame limit is read back unchanged, in order (`StreamHandler.InboxWire`). An oversized frame is refused before its body arrives. A truncated frame yields no message.
- **HOP/STOP protocol.** A HOP request is spliced exactly when the STOP request is accepted. SUCCESS is never written otherwise. When the destination runs `handleStop` on valid addresses, a hop from the source ends spliced, with each side's following bytes handed over (`CircuitHop.CircuitEndToEnd`).
- **CAN_HOP probe.** The probe answers exactly the relay's `hopEnabled` (`CircuitHop.CanHopMeetsHandleCanHop`).
- **Signalling relay.** Every registered peer receives exactly the messages addressed to it, in arrival order (`SignalTransport.RouteAllDelivers`).
- **Address handling.** Joining the parts of `split` with the separator gives back the text (`SignalAddrs.SplitJoin`). Splitting two separator-free texts joined by `/p2p-webrtc-star` gives back those two texts (`SignalAddrs.DialPartsOfJoin`). Also, `dial`'s relay and destination parts never contain the separator.
- **`getMany`.** It yields the first `nVals` VALUE records and stops reading right after the last one it needs.

Behaviour of the code worth noting:

- `canHop` fails (it does not answer `false`) when the stream cannot be opened or the reply frame is oversized.
- A validation failure writes a status code but does not close the channel.
- An oversized frame makes `read` fail and leaves the handler open.
- A destination id that does not decode fails `handleHop` without writing anything (`BadDestinationId`).

## Model

| member | source | states |
|---|---|---|
| Varint.Encode | src/circuit/circuit/stream-handler.ts:59 | the length prefix is at least one byte; only its last byte is below 128; it is one byte exactly for lengths below 128 |
| Varint.Decode | src/circuit/circuit/stream-handler.ts:33 | decoding consumes a proper prefix; it fails exactly when no byte ends the prefix (every byte has its high bit set) |
| Varint.DecodeEncode | src/circuit/circuit/stream-handler.ts:33-59 | decoding the prefix written for a length gives that length back and leaves the following bytes untouched |
| Varint.TruncatedEncodingIncomplete | src/circuit/circuit/stream-handler.ts:33 | a length prefix cut off before its last byte yields no length: the reader needs more bytes |
| Varint.EncodeInjective | src/circuit/circuit/stream-handler.ts:59 | different lengths get different prefixes |
| MessageCodec.DecodeEncode | src/circuit/circuit/stream-handler.ts:44-59 | a message body decodes back to the message it was encoded from |
| MessageCodec.EncodeInjective | src/circuit/circuit/stream-handler.ts:59 | different messages are written as different bodies |
| StreamHandler.Open | src/circuit/circuit/stream-handler.ts:28-34 | a new handler is framed, has sent nothing, and limits a frame to the default 4096 bytes; every handler in the modelled files is created without a `maxLength` |
| StreamHandler.ReadFrameOfFrame | src/circuit/circuit/stream-handler.ts:33 | a frame within the limit reads back as its body, leaving the following bytes; a frame over the limit is refused |
| StreamHandler.Write | src/circuit/circuit/stream-handler.ts:57-60 | writing appends the message to what was sent and its length-prefixed encoding to the wire; the handler stays framed |
| StreamHandler.Read | src/circuit/circuit/stream-handler.ts:39-52 | with nothing to read, the handler is closed and no message returned; a failed read changes nothing |
| StreamHandler.ReadWritten | src/circuit/circuit/stream-handler.ts:39-60 | reading a channel whose incoming bytes begin with a written frame returns exactly that message and leaves the rest unread |
| StreamHandler.ReadOversized | src/circuit/circuit/stream-handler.ts:33-44 | a frame longer than the limit makes the read fail with the channel unchanged |
| StreamHandler.ReadTruncated | src/circuit/circuit/stream-handler.ts:43-51 | a frame cut short yields no message, and the handler is closed |
| StreamHandler.Rest | src/circuit/circuit/stream-handler.ts:65-68 | resting hands over exactly the unread bytes and invalidates the handler; a closed handler stays closed |
| StreamHandler.Close | src/circuit/circuit/stream-handler.ts:81-86 | closing works from any phase and ends closed; what was sent and what is unread are kept |
| StreamHandler.End | src/circuit/circuit/stream-handler.ts:73-76 | the message is the last one sent, and the handler ends closed |
| StreamHandler.InboxWire | src/circuit/circuit/stream-handler.ts:39-60 | the messages written in sequence, each within the limit, are read back in the same order and nothing else |
| CircuitUtils.WriteResponse | src/circuit/circuit/utils.ts:8-13 | exactly one STATUS message with the given code and no peers is appended; the handler stays framed |
| CircuitUtils.ValidateAddrs | src/circuit/circuit/utils.ts:18-44 | it passes iff every destination and source address parses, and a pass writes nothing; destination is checked first, with the HOP or STOP flavour of the code chosen by the message type; a failure writes exactly one non-SUCCESS status |
| CircuitStop.HandleStop | src/circuit/circuit/stop.ts:22-45 | a stream is returned iff validation passes; then exactly SUCCESS is written and the unread bytes are handed over; otherwise no SUCCESS is written |
| CircuitStop.Stop | src/circuit/circuit/stop.ts:55-83 | the request is the only message sent; an unopenable stream or a stream error while reading fails; the call is accepted iff the reply's code is SUCCESS, leaving the handler rested; a missing reply and a non-SUCCESS reply both give no stream and a closed channel |
| CircuitStop.StopSucceeds | src/circuit/circuit/stop.ts:76-78 | a SUCCESS reply hands over exactly the bytes that followed it |
| CircuitStop.StopDeclined | src/circuit/circuit/stop.ts:81-82 | any other reply code gives no stream and a closed channel |
| CircuitStop.StopMeetsHandleStop | src/circuit/circuit/stop.ts:22-83 | a STOP request answered by `handleStop` on the destination is accepted iff the request's addresses parse |
| CircuitHop.StopRequestFor | src/circuit/circuit/hop.ts:88-92 | the STOP request carries the HOP request's source and destination peers and no code |
| CircuitHop.HandleHop | src/circuit/circuit/hop.ts:28-127 | hop disabled: CANT_SPEAK_RELAY and no STOP; invalid addresses: only the validator's reply; no connection to the destination: NO_CONN_TO_DST whatever `hopActive` says; a destination id that is not a peer id: nothing written; with a connection to the destination, exactly one STOP goes to the first connection, and none is made otherwise; the result is spliced iff the STOP is accepted, with SUCCESS written only then |
| CircuitHop.Hop | src/circuit/circuit/hop.ts:138-169 | the request is the only message sent; it succeeds iff the reply's code is SUCCESS, and the handler then stays framed; no reply and a refusing reply are distinct errors, and both leave the channel closed; a stream error while reading is passed on |
| CircuitHop.CanHop | src/circuit/circuit/hop.ts:178-203 | sends one CAN_HOP message; whenever it answers, the channel is closed; no reply answers false; a reply answers whether its code is SUCCESS; a stream error is passed on |
| CircuitHop.HandleCanHop | src/circuit/circuit/hop.ts:214-226 | ends the channel with SUCCESS iff hop is enabled, otherwise with CANT_SPEAK_RELAY |
| CircuitHop.CanHopMeetsHandleCanHop | src/circuit/circuit/hop.ts:178-226 | a CAN_HOP probe answered by `handleCanHop` returns exactly the relay's `hopEnabled` |
| CircuitHop.CircuitEndToEnd | src/circuit/circuit/hop.ts:28-169 | with valid addresses and a destination running `handleStop`, the relay splices source and destination with each side's following bytes, and the source's `hop` succeeds |
| SignalAddrs.EncapsulateWebRtcStar | src/webrtc-signal/index.ts:130 | the address text gains `/p2p-webrtc-star` at its end; the protocol is present afterwards; a circuit component is kept |
| SignalAddrs.Filter | src/webrtc-signal/transport.ts:139-148 | an address is kept iff it has no circuit component and names webrtc-star; order is kept |
| SignalAddrs.FilterAppend | src/webrtc-signal/transport.ts:139-148 | filtering distributes over concatenation |
| SignalAddrs.ListenAddrFiltered | src/webrtc-signal/transport.ts:139-148 | an address AutoSignal listens on passes the filter iff the remote address had no circuit component |
| SignalAddrs.Split | src/webrtc-signal/transport.ts:103 | there is always at least one part, and the first part is a prefix of the text |
| SignalAddrs.SplitJoin | src/webrtc-signal/transport.ts:103 | joining the parts with the separator rebuilds the text |
| SignalAddrs.SplitPartsSepFree | src/webrtc-signal/transport.ts:103 | no part contains the separator |
| SignalAddrs.DialParts | src/webrtc-signal/transport.ts:103-105 | neither part contains the separator; with no separator both are the whole text; otherwise the text starts with the relay part and the separator and ends with the separator and the destination part |
| SignalAddrs.DialPartsOfJoin | src/webrtc-signal/transport.ts:103-105 | two texts free of `/p2p-webrtc-star`, joined by it, are split back into exactly those two texts |
| SignalAddrs.FirstNonEmpty | src/webrtc-signal/listener.ts:17 | none iff every part is empty; otherwise the first non-empty part |
| SignalTransport.NewTransport | src/webrtc-signal/transport.ts:52-54 | a new transport is not started and has no handler registered |
| SignalTransport.Start | src/webrtc-signal/transport.ts:66-81 | start registers the handler once; a second start changes nothing |
| SignalTransport.StopAsWritten | src/webrtc-signal/transport.ts:83-85 | stop unregisters the handler but keeps the started flag |
| SignalTransport.RestartAsWrittenLosesHandler | src/webrtc-signal/transport.ts:66-85 | after start, stop and start, no handler is registered |
| SignalTransport.Stop | src/webrtc-signal/transport.ts:83-85 | the corrected stop unregisters the handler and clears the started flag |
| SignalTransport.RestartRegistersHandler | src/webrtc-signal/transport.ts:66-85 | with the corrected stop, start after stop registers the handler again |
| SignalTransport.NoRoutes | src/webrtc-signal/transport.ts:46 | the relay starts with no peer's stream registered |
| SignalTransport.Register | src/webrtc-signal/transport.ts:150-169 | a peer's new stream replaces its old entry and starts empty; other peers' streams are untouched |
| SignalTransport.Route | src/webrtc-signal/transport.ts:181-191 | a message is pushed to the stream of its `dst` only, or dropped when `dst` has none |
| SignalTransport.RouteAllDelivers | src/webrtc-signal/transport.ts:171-193 | every registered peer receives exactly the messages addressed to it, in order |
| SignalTransport.Dial | src/webrtc-signal/transport.ts:101-116 | a missing relay or destination peer id fails; then an aborted signal fails; otherwise the destination's id is dialled, and it is dialled only then |
| SignalTransport.DialRelayedAddress | src/webrtc-signal/transport.ts:101-116 | for a relay address, `/p2p-webrtc-star` and a destination address, each without the separator, the peer id dialled is the destination's, and a missing id on either side fails |
| SignalTransport.DialResponseMatches | src/webrtc-signal/transport.ts:288-292 | the dialled peer's RESPONSE is accepted, and the echoed REQUEST never is |
| SignalListener.NewListener | src/webrtc-signal/listener.ts:13-14 | a new listener has no address and has dispatched nothing |
| SignalListener.RelayText | src/webrtc-signal/listener.ts:17 | the relay part is non-empty and free of `/p2p-circuit`; an address without it is its own relay part |
| SignalListener.Listen | src/webrtc-signal/listener.ts:16-54 | it succeeds iff the relay id exists, a connection to it exists and the first one opens a stream; success records the address and dispatches `listening`; a failure changes nothing |
| SignalListener.GetAddrs | src/webrtc-signal/listener.ts:56-62 | at most one address: the one listened on, or none before a successful listen |
| SignalListener.CloseListener | src/webrtc-signal/listener.ts:64-66 | close only dispatches `close`; the addresses stay |
| SignalListener.GetAddrsAfterListen | src/webrtc-signal/listener.ts:16-62 | after listen, the addresses are the new one on success and the old ones on failure |
| AutoSignal.NewAutoSignal | src/webrtc-signal/index.ts:33-39 | a new AutoSignal is not listening |
| AutoSignal.AddListener | src/webrtc-signal/index.ts:125-140 | it listens on the remote address with `/p2p-webrtc-star` appended; `isListening` becomes true iff listening succeeded |
| AutoSignal.HandleProtocols | src/webrtc-signal/index.ts:94-120 | a listen is attempted iff not yet listening, the peer is the relay, it speaks the signalling codec and there is a connection to it; the first connection is used |
| AutoSignal.OnPeerConnected | src/webrtc-signal/index.ts:60-67 | the connected peer's protocols come from the protocol book; an already-listening AutoSignal or a peer that is not the relay changes nothing |
| AutoSignal.OnProtocolChange | src/webrtc-signal/index.ts:69-76 | the event's protocols go through the same guard; the same two cases change nothing |
| AutoSignal.OnListenerClosed | src/webrtc-signal/index.ts:78-92 | `isListening` is cleared iff the closed listener's first address names webrtc-star |
| AutoSignal.ClosingOwnListenerAllowsRelisten | src/webrtc-signal/index.ts:78-140 | closing the listener AutoSignal started clears `isListening`, so the relay's next protocol event listens again |
| ContentRouting.NewRouter | src/content-routing/index.ts:34-38 | a new router is not started |
| ContentRouting.Start | src/content-routing/index.ts:44-46 | start sets the started flag and nothing else |
| ContentRouting.Stop | src/content-routing/index.ts:48-50 | stop clears the started flag and nothing else |
| ContentRouting.RequireRouters | src/content-routing/index.ts:55-77 | `findProviders` and `provide` fail with NO_ROUTERS_AVAILABLE iff there is no router |
| ContentRouting.Put | src/content-routing/index.ts:85-95 | refused iff not started; without a DHT nothing is stored and nothing fails; with one, `put` succeeds iff draining the DHT's `put` succeeds, and its error is passed on |
| ContentRouting.PutFollowsLifecycle | src/content-routing/index.ts:44-95 | `put` is accepted after start unless the DHT fails, and refused after stop or before any start |
| ContentRouting.Get | src/content-routing/index.ts:101-117 | refused before start; the value of the first VALUE event; without one, the error the query throws, else NOT_FOUND; NOT_FOUND without a DHT |
| ContentRouting.GetMany | src/content-routing/index.ts:122-151 | `nVals` absent or 0 yields nothing and never fails; otherwise the first `nVals` VALUE records in order (all of them for a negative `nVals`); NOT_FOUND when none; a query read to its end that throws passes its error on after the records already yielded; with a DHT, reading stops right after the `nVals`-th VALUE event (the last event read is that VALUE) and otherwise goes on to the query's end; without a DHT no event is read |

## Left out

- Splicing the source and destination streams with `pipe` (hop.ts:122-126) is modelled only as the terminal `Spliced` outcome carrying both handed-over byte streams. Data flow through the splice is not modelled.
- The internals of `it-handshake` and `it-length-prefixed` are not part of this model. In particular:
  - their limit on the length of the length prefix is not modelled;
  - a frame cut short at end of stream is modelled as "no message".
- The protobuf codec of `../pb` is not part of this model. `MessageCodec` replaces it with a stand-in encoding with the same round-trip property, and:
  - the message type is always present. An empty body, or one without a type, is therefore a malformed frame (a read error). Protobuf would decode it to a message without a type, which `stop` and `canHop` would treat as a reply that is not SUCCESS;
  - the status is the closed set of seven codes;
  - a peer's `addrs` list is always present, as the generated type makes it, so an absent list is the empty list.
- Multiaddr parsing, `peerIdFromBytes`, `peerIdFromString` and `getPeerId` are parameters, not definitions.
- The `maxLength` option of the stream handler's constructor is a field of `Channel`, but `Open` always uses the default 4096: no modelled caller passes another value.
- `closeBaseStream` in stream-handler.ts is not modelled: no caller in the modelled files uses it.
- The WebRTC channel, its offer/answer exchange and its error and close handling in `_connect` (transport.ts:203-321) are left out, except:
  - the abort pre-check;
  - the predicate that picks the dialled peer's RESPONSE.
- `toMultiaddrConnection`, the upgrader and `socket-to-conn.ts` are not part of this model.
- The JSON encoding and pushable pipes of `_handlePeerSignallingStream` are not modelled; routing is modelled on decoded messages.
- The `DialResponseListener` event plumbing is not modelled.
- The listener's `peer:disconnect` subscription (listener.ts:40-50) is not modelled: it is event plumbing, and only calls `close`, which is modelled.
- The constructor's event subscriptions in AutoSignal (index.ts:45-57) are not modelled: each handler is a function of the event.
- Interleaving of concurrent asynchronous handlers is not modelled.
- A failing `registrar.handle` (caught and logged in `start`) is not modelled: `start` always registers.
- Merging the routers' results in `findProviders` and the `Promise.all` in `provide` are not modelled: only the empty-router check is.
- The DHT query is the finite sequence of events it yields, optionally followed by one thrown error. Timeouts and abort signals in content routing are not modelled.
- A non-integer `nVals` in `getMany` is not modelled; `nVals` is an optional integer.
- Logging is not modelled.
- `SignalAddrs.Text`: a multiaddr's text is built from component names and values. The real multiaddr string codec is not part of this model.

## Findings

| source | as written | input that shows it | evidently intended | confidence | as-written member | corrected member |
|---|---|---|---|---|---|---|
| src/webrtc-signal/transport.ts:83-85 | `stop()` unregisters the signalling handler but leaves `_started` set, and `start()` returns early while `_started` is set | `start(); stop(); start()` leaves the signalling protocol with no handler | `stop()` clears `_started`, so a later `start()` registers the handler again | medium, not executed | SignalTransport.RestartAsWrittenLosesHandler | SignalTransport.RestartRegistersHandler |

=== FILE: auto_signal.dfy ===
/**
 * `AutoSignal`: starts listening through the configured relay once it is
 * connected and speaks the signalling protocol, and tracks whether it is
 * listening.
 */
module AutoSignal {
  import opened Wrappers
  import opened SignalAddrs
  import opened SignalListener

  /** A protocol a peer supports: the signalling codec or some other one. */
  datatype Protocol = SignalCodec | OtherProtocol(id: string)

  datatype AutoSignalState = AutoSignalState(relayPeerId: string, isListening: bool)

  /** What a protocol event made AutoSignal do. */
  datatype Attempt = NoAttempt | ListeningOn(addr: Multiaddr) | ListenFailed(addr: Multiaddr)

  datatype Handled = Handled(state: AutoSignalState, attempt: Attempt)

  function NewAutoSignal(relayPeerId: string): (a: AutoSignalState)
    ensures !a.isListening && a.relayPeerId == relayPeerId
  {
    AutoSignalState(relayPeerId, false)
  }

  /**
   * `_addListener`: asks the transport manager to listen on the connection's
   * remote address followed by `/p2p-webrtc-star` (`listens` says whether that
   * succeeds); `isListening` becomes the outcome, and a failure is rethrown.
   */
  function AddListener(a: AutoSignalState, conn: Connection, listens: Multiaddr -> bool): (r: Handled)
    ensures r.attempt != NoAttempt && r.attempt.addr == EncapsulateWebRtcStar(conn.remoteAddr)
    ensures Text(r.attempt.addr) == Text(conn.remoteAddr) + WebRtcStarSep
    ensures r.state.relayPeerId == a.relayPeerId
    ensures r.state.isListening <==> r.attempt.ListeningOn?
    ensures r.attempt.ListeningOn? <==> listens(r.attempt.addr)
  {
    var addr := EncapsulateWebRtcStar(conn.remoteAddr);
    if listens(addr) then Handled(a.(isListening := true), ListeningOn(addr))
    else Handled(a.(isListening := false), ListenFailed(addr))
  }

  /**
   * `_handleProtocols`: nothing happens when already listening, when the peer
   * is not the configured relay, when it does not speak the signalling codec,
   * or when there is no connection to it; otherwise the first connection is
   * listened through.
   */
  function HandleProtocols(a: AutoSignalState, peerId: string, protocols: seq<Protocol>,
                           connections: seq<Connection>, listens: Multiaddr -> bool): (r: Handled)
    ensures a.isListening || peerId != a.relayPeerId ==> r == Handled(a, NoAttempt)
    ensures SignalCodec !in protocols || |connections| == 0 ==> r == Handled(a, NoAttempt)
    ensures r.attempt != NoAttempt <==>
              !a.isListening && peerId == a.relayPeerId && SignalCodec in protocols && |connections| > 0
    ensures r.attempt != NoAttempt ==> r == AddListener(a, connections[0], listens)
  {
    if a.isListening || peerId != a.relayPeerId then Handled(a, NoAttempt)
    else if SignalCodec !in protocols then Handled(a, NoAttempt)
    else if |connections| == 0 then Handled(a, NoAttempt)
    else AddListener(a, connections[0], listens)
  }

  /** `_onPeerConnected`: the protocols come from the protocol book; then the same guard. */
  function OnPeerConnected(a: AutoSignalState, conn: Connection,
                           protoBook: string -> seq<Protocol>,
                           connectionsTo: string -> seq<Connection>,
                           listens: Multiaddr -> bool): (r: Handled)
    ensures a.isListening || conn.remotePeer != a.relayPeerId ==> r == Handled(a, NoAttempt)
    ensures r == HandleProtocols(a, conn.remotePeer, protoBook(conn.remotePeer), connectionsTo(conn.remotePeer), listens)
  {
    HandleProtocols(a, conn.remotePeer, protoBook(conn.remotePeer), connectionsTo(conn.remotePeer), listens)
  }

  /** `_onProtocolChange`: the protocols come with the event; then the same guard. */
  function OnProtocolChange(a: AutoSignalState, peerId: string, protocols: seq<Protocol>,
                            connectionsTo: string -> seq<Connection>,
                            listens: Multiaddr -> bool): (r: Handled)
    ensures a.isListening || peerId != a.relayPeerId ==> r == Handled(a, NoAttempt)
    ensures r == HandleProtocols(a, peerId, protocols, connectionsTo(peerId), listens)
  {
    HandleProtocols(a, peerId, protocols, connectionsTo(peerId), listens)
  }

  /**
   * `_onListenerClosed`: a listener with no address, or whose first address is
   * not webrtc-star, leaves `isListening` alone; otherwise it is cleared.
   */
  function OnListenerClosed(a: AutoSignalState, listenAddrs: seq<Multiaddr>): (r: AutoSignalState)
    ensures r.relayPeerId == a.relayPeerId
    ensures |listenAddrs| == 0 || WebRtcStarName !in ProtoNames(listenAddrs[0]) ==> r == a
    ensures |listenAddrs| > 0 && WebRtcStarName in ProtoNames(listenAddrs[0]) ==> !r.isListening
  {
    if |listenAddrs| == 0 then a
    else if WebRtcStarName !in ProtoNames(listenAddrs[0]) then a
    else a.(isListening := false)
  }

  /**
   * The listener AutoSignal started, once closed, clears `isListening`, so the
   * next protocol event from the relay listens again.
   */
  lemma ClosingOwnListenerAllowsRelisten(a: AutoSignalState, conn: Connection, listens: Multiaddr -> bool,
                                         l: Listener, protocols: seq<Protocol>, connections: seq<Connection>)
    requires AddListener(a, conn, listens).attempt.ListeningOn?
    requires l.addr == Some(AddListener(a, conn, listens).attempt.addr)
    requires SignalCodec in protocols && |connections| > 0
    ensures var closed := OnListenerClosed(AddListener(a, conn, listens).state, GetAddrs(CloseListener(l)));
            && !closed.isListening
            && HandleProtocols(closed, a.relayPeerId, protocols, connections, listens).attempt != NoAttempt
  {
    var addr := AddListener(a, conn, listens).attempt.addr;
    assert GetAddrs(CloseListener(l)) == [addr];
  }
}

=== FILE: circuit_hop.dfy ===
/**
 * The HOP and CAN_HOP sub-protocols: the relay's responders (`handleHop`,
 * `handleCanHop`) and the source's initiators (`hop`, `canHop`).
 */
module CircuitHop {
  import opened Wrappers
  import opened RelayMessage
  import opened StreamHandler
  import opened CircuitUtils
  import opened CircuitStop
  import MessageCodec

  /** The relay's configuration, read but never changed by the handlers. */
  datatype RelayFlags = RelayFlags(hopEnabled: bool, hopActive: bool)

  /** How a HOP request ends at the relay. */
  datatype HopEnd =
    | Refused(code: Status)                 // the source's handler was ended with this STATUS
    | InvalidAddrs                          // the validator replied; nothing else happens
    | NoDestination                         // no dstPeer: no reply at all
    | BadDestinationId                      // dstPeer.id is not a peer id: the handler throws
    | StopFailed                            // the STOP sub-request gave no stream or threw
    | Spliced(source: Raw, destination: Raw) // both raw streams are piped into each other

  /** The source's handler after the run and the STOP sub-request, if one was made. */
  datatype HopRun = HopRun(end: HopEnd, source: Channel, stop: Option<StopCall>)

  /** The STOP sub-request: type STOP, with the HOP request's peers unchanged and no code. */
  function StopRequestFor(request: Message): (r: Message)
    ensures r.msgType == STOP && r.code.None?
    ensures r.srcPeer == request.srcPeer && r.dstPeer == request.dstPeer
  {
    Message(STOP, request.srcPeer, request.dstPeer, None)
  }

  /**
   * `handleHop`. `parses` stands for the multiaddr parser; `connectionsTo`
   * decodes a destination id and looks up the live connections to it, giving
   * None when the bytes are not a peer id.
   */
  function HandleHop(flags: RelayFlags, request: Message, source: Channel,
                     parses: Bytes -> bool,
                     connectionsTo: Bytes -> Option<seq<Remote>>): (r: HopRun)
    requires source.phase == Framed
    // relaying disabled: one CANT_SPEAK_RELAY reply and nothing else
    ensures !flags.hopEnabled ==>
              r == HopRun(Refused(HOP_CANT_SPEAK_RELAY), End(source, StatusMessage(HOP_CANT_SPEAK_RELAY)), None)
    // bad addresses: only the validator's reply
    ensures flags.hopEnabled && !(AddrsParse(request.dstPeer, parses) && AddrsParse(request.srcPeer, parses)) ==>
              r == HopRun(InvalidAddrs, ValidateAddrs(request, source, parses).channel, None)
    // missing destination after validation: no reply at all
    ensures flags.hopEnabled && AddrsParse(request.dstPeer, parses) && AddrsParse(request.srcPeer, parses)
            && request.dstPeer.None? ==>
              r == HopRun(NoDestination, source, None)
    // no connection to the destination: NO_CONN_TO_DST, whatever hopActive says
    ensures flags.hopEnabled && AddrsParse(request.dstPeer, parses) && AddrsParse(request.srcPeer, parses)
            && request.dstPeer.Some? && connectionsTo(request.dstPeer.value.id) == Some([]) ==>
              r == HopRun(Refused(HOP_NO_CONN_TO_DST), End(source, StatusMessage(HOP_NO_CONN_TO_DST)), None)
    // a destination id that is not a peer id: the handler throws, nothing written
    ensures flags.hopEnabled && AddrsParse(request.dstPeer, parses) && AddrsParse(request.srcPeer, parses)
            && request.dstPeer.Some? && connectionsTo(request.dstPeer.value.id).None? ==>
              r == HopRun(BadDestinationId, source, None)
    // with a connection to the destination, the STOP sub-request goes to the first one
    ensures flags.hopEnabled && AddrsParse(request.dstPeer, parses) && AddrsParse(request.srcPeer, parses)
            && request.dstPeer.Some? && connectionsTo(request.dstPeer.value.id).Some?
            && |connectionsTo(request.dstPeer.value.id).value| > 0 ==>
              r.stop == Some(Stop(StopRequestFor(request), connectionsTo(request.dstPeer.value.id).value[0]))
    // and no STOP sub-request is made otherwise
    ensures r.stop.Some? ==>
              && flags.hopEnabled && request.dstPeer.Some?
              && var conns := connectionsTo(request.dstPeer.value.id);
              && conns.Some? && |conns.value| > 0
              && r.stop.value == Stop(StopRequestFor(request), conns.value[0])
    // a failed STOP: the source gets nothing from this handler
    ensures r.stop.Some? && !Accepted(r.stop.value) ==> r == HopRun(StopFailed, source, r.stop)
    // SUCCESS only after an accepted STOP, then rest and splice
    ensures r.end.Spliced? <==> r.stop.Some? && Accepted(r.stop.value)
    ensures r.end.Spliced? ==>
              && r.source.sent == source.sent + [StatusMessage(SUCCESS)]
              && r.source.phase == Rested
              && r.end == Spliced(Raw(source.incoming), r.stop.value.result.value.value)
    ensures |r.source.sent| >= |source.sent| && r.source.sent[..|source.sent|] == source.sent
    ensures !r.end.Spliced? ==> StatusMessage(SUCCESS) !in r.source.sent[|source.sent|..]
  {
    if !flags.hopEnabled then
      HopRun(Refused(HOP_CANT_SPEAK_RELAY), End(source, StatusMessage(HOP_CANT_SPEAK_RELAY)), None)
    else
      var checked := ValidateAddrs(request, source, parses);
      if !checked.passed then
        HopRun(InvalidAddrs, checked.channel, None)
      else if request.dstPeer.None? then
        HopRun(NoDestination, checked.channel, None)
      else
        match connectionsTo(request.dstPeer.value.id)
        case None => HopRun(BadDestinationId, checked.channel, None)
        case Some(conns) =>
          if |conns| == 0 && !flags.hopActive then
            HopRun(Refused(HOP_NO_CONN_TO_DST), End(checked.channel, StatusMessage(HOP_NO_CONN_TO_DST)), None)
          else if |conns| == 0 then
            // active relaying is not implemented: the same refusal
            HopRun(Refused(HOP_NO_CONN_TO_DST), End(checked.channel, StatusMessage(HOP_NO_CONN_TO_DST)), None)
          else
            var call := Stop(StopRequestFor(request), conns[0]);
            if Accepted(call) then
              var handoff := Rest(Write(checked.channel, StatusMessage(SUCCESS)));
              HopRun(Spliced(handoff.stream, call.result.value.value), handoff.channel, Some(call))
            else
              HopRun(StopFailed, checked.channel, Some(call))
  }

  /** `hop`'s failures; every one but a stream error is ERR_HOP_REQUEST_FAILED. */
  datatype HopError = HopStream(error: StreamError) | HopNoResponse | HopRefused(code: Option<Status>)

  datatype HopCall = HopCall(channel: Option<Channel>, result: Result<(), HopError>)

  /**
   * `hop`: opens a stream to the relay, writes the request, reads one reply.
   * SUCCESS returns the (still framed) handler; no reply, or any other code
   * after closing the handler, fails with ERR_HOP_REQUEST_FAILED.
   */
  function Hop(request: Message, remote: Remote): (r: HopCall)
    ensures remote.Unreachable? ==> r == HopCall(None, Err(HopStream(OpenFailed)))
    ensures remote.Answers? ==> r.channel.Some? && r.channel.value.sent == [request]
    ensures remote.Answers? ==>
              var first := Read(Write(Open(remote.reply), request)).result;
              && (r.result.Ok? <==> first.Got? && first.msg.code == Some(SUCCESS))
              && (first.NoMessage? ==> r.result == Err(HopNoResponse))
              && (first.Got? && first.msg.code != Some(SUCCESS) ==> r.result == Err(HopRefused(first.msg.code)))
              && (first.ReadFailed? ==> r.result == Err(HopStream(first.error)))
    ensures r.result.Ok? ==> r.channel.value.phase == Framed
    ensures r.result.Err? && (r.result.error.HopNoResponse? || r.result.error.HopRefused?) ==>
              r.channel.value.phase == Closed
  {
    match remote
    case Unreachable => HopCall(None, Err(HopStream(OpenFailed)))
    case Answers(reply) =>
      var received := Read(Write(Open(reply), request));
      match received.result
      case NoMessage => HopCall(Some(received.channel), Err(HopNoResponse))
      case ReadFailed(e) => HopCall(Some(received.channel), Err(HopStream(e)))
      case Got(response) =>
        if response.code == Some(SUCCESS) then
          HopCall(Some(received.channel), Ok(()))
        else
          HopCall(Some(Close(received.channel)), Err(HopRefused(response.code)))
  }

  /** The CAN_HOP probe request: a bare CAN_HOP message. */
  const CanHopRequest: Message := Message(CAN_HOP, None, None, None)

  datatype CanHopCall = CanHopCall(channel: Option<Channel>, result: Result<bool, StreamError>)

  /**
   * `canHop`: writes CAN_HOP, reads one reply, always closes the handler after
   * reading, and answers true exactly when the reply carried SUCCESS. Failing
   * to open the stream, or a stream error while reading, is thrown.
   */
  function CanHop(remote: Remote): (r: CanHopCall)
    ensures remote.Unreachable? ==> r == CanHopCall(None, Err(OpenFailed))
    ensures remote.Answers? ==> r.channel.Some? && r.channel.value.sent == [CanHopRequest]
    ensures r.result.Ok? ==> r.channel.value.phase == Closed
    ensures remote.Answers? ==>
              var first := Read(Write(Open(remote.reply), CanHopRequest)).result;
              && (first.NoMessage? ==> r.result == Ok(false))
              && (first.Got? ==> r.result == Ok(first.msg.code == Some(SUCCESS)))
              && (first.ReadFailed? ==> r.result == Err(first.error))
    ensures r.result == Ok(true) <==>
              && remote.Answers?
              && var first := Read(Write(Open(remote.reply), CanHopRequest)).result;
              && first.Got? && first.msg.code == Some(SUCCESS)
  {
    match remote
    case Unreachable => CanHopCall(None, Err(OpenFailed))
    case Answers(reply) =>
      var received := Read(Write(Open(reply), CanHopRequest));
      match received.result
      case ReadFailed(e) => CanHopCall(Some(received.channel), Err(e))
      case NoMessage => CanHopCall(Some(Close(received.channel)), Ok(false))
      case Got(response) => CanHopCall(Some(Close(received.channel)), Ok(response.code == Some(SUCCESS)))
  }

  /** `handleCanHop`: ends the handler with SUCCESS when relaying is enabled, else CANT_SPEAK_RELAY. */
  function HandleCanHop(flags: RelayFlags, ch: Channel): (r: Channel)
    requires ch.phase == Framed
    ensures r.phase == Closed && |r.sent| == |ch.sent| + 1 && r.sent[..|ch.sent|] == ch.sent
    ensures r.sent[|ch.sent|].msgType == STATUS
    ensures r.sent[|ch.sent|].code == Some(SUCCESS) <==> flags.hopEnabled
    ensures !flags.hopEnabled ==> r.sent[|ch.sent|].code == Some(HOP_CANT_SPEAK_RELAY)
  {
    End(ch, StatusMessage(if flags.hopEnabled then SUCCESS else HOP_CANT_SPEAK_RELAY))
  }

  // ---- the two sides together ----

  /** A STATUS reply fits in a default-sized frame. */
  lemma StatusFits(code: Status)
    ensures |MessageCodec.Encode(StatusMessage(code))| <= DefaultMaxLength
  {
    assert |MessageCodec.Encode(StatusMessage(code))| == 5;
  }

  /** The probe against the relay's responder reports exactly whether the relay has HOP enabled. */
  lemma CanHopMeetsHandleCanHop(flags: RelayFlags, after: Bytes)
    ensures Read(Open(Wire([CanHopRequest]))).result == Got(CanHopRequest)
    ensures var answered := HandleCanHop(flags, Read(Open(Wire([CanHopRequest]))).channel);
            CanHop(Answers(Wire(answered.sent) + after)).result == Ok(flags.hopEnabled)
  {
    var relay := Open(Wire([CanHopRequest]));
    assert Wire([CanHopRequest]) == Frame(MessageCodec.Encode(CanHopRequest)) + [];
    assert |MessageCodec.Encode(CanHopRequest)| == 4;
    ReadWritten(relay, CanHopRequest, []);
    var reply := StatusMessage(if flags.hopEnabled then SUCCESS else HOP_CANT_SPEAK_RELAY);
    var answered := HandleCanHop(flags, Read(relay).channel);
    assert answered.sent == [reply];
    assert Wire([reply]) == Frame(MessageCodec.Encode(reply));
    StatusFits(reply.code.value);
    ReadWritten(Write(Open(Wire([reply]) + after), CanHopRequest), reply, after);
  }

  /**
   * A whole circuit: the relay reads the source's HOP frame, its first
   * connection to the destination reaches a peer that reads the STOP frame and
   * runs `handleStop`; with relaying enabled and parsing addresses the relay
   * splices the bytes that follow each side's negotiation, and the source's
   * `hop` reads SUCCESS.
   */
  lemma CircuitEndToEnd(flags: RelayFlags, request: Message, payload: Bytes, back: Bytes,
                        parses: Bytes -> bool, connectionsTo: Bytes -> Option<seq<Remote>>)
    requires flags.hopEnabled
    requires request.dstPeer.Some?
    requires AddrsParse(request.dstPeer, parses) && AddrsParse(request.srcPeer, parses)
    requires |MessageCodec.Encode(request)| <= DefaultMaxLength
    requires |MessageCodec.Encode(StopRequestFor(request))| <= DefaultMaxLength
    requires var conns := connectionsTo(request.dstPeer.value.id);
             && conns.Some? && |conns.value| > 0
             && var stopRequest := StopRequestFor(request);
             var destination := HandleStop(stopRequest, Open([]), parses);
             conns.value[0] == Answers(Wire(destination.channel.sent) + back)
    ensures Read(Open(Wire([StopRequestFor(request)]))) == Received(Got(StopRequestFor(request)), Open([]))
    ensures Read(Open(Wire([request]) + payload)).result == Got(request)
    ensures var run := HandleHop(flags, request, Read(Open(Wire([request]) + payload)).channel, parses, connectionsTo);
            && run.end == Spliced(Raw(payload), Raw(back))
            && Hop(request, Answers(Wire(run.source.sent))).result == Ok(())
  {
    var relay := Open(Wire([request]) + payload);
    assert Wire([request]) == Frame(MessageCodec.Encode(request));
    ReadWritten(relay, request, payload);
    StopMeetsHandleStop(StopRequestFor(request), parses, back);
    assert Wire([StopRequestFor(request)]) == Frame(MessageCodec.Encode(StopRequestFor(request))) + [];
    ReadWritten(Open(Wire([StopRequestFor(request)])), StopRequestFor(request), []);
    var run := HandleHop(flags, request, Read(relay).channel, parses, connectionsTo);
    assert run.source.sent == [StatusMessage(SUCCESS)];
    assert Wire([StatusMessage(SUCCESS)]) == Frame(MessageCodec.Encode(StatusMessage(SUCCESS))) + [];
    StatusFits(SUCCESS);
    ReadWritten(Write(Open(Wire(run.source.sent)), request), StatusMessage(SUCCESS), []);
  }
}

=== FILE: circuit_stop.dfy ===
/**
 * The STOP sub-protocol: the destination's responder (`handleStop`) and the
 * relay's initiator (`stop`).
 */
module CircuitStop {
  import opened Wrappers
  import opened RelayMessage
  import opened StreamHandler
  import opened CircuitUtils
  import MessageCodec

  datatype StopHandled = StopHandled(stream: Option<Raw>, channel: Channel)

  /**
   * `handleStop`: a request whose addresses do not validate gets only the
   * validator's reply and no stream; a valid one gets exactly one
   * STATUS=SUCCESS, after which the rest stream is handed to the application.
   */
  function HandleStop(request: Message, ch: Channel, parses: Bytes -> bool): (r: StopHandled)
    requires ch.phase == Framed
    ensures r.stream.Some? <==> AddrsParse(request.dstPeer, parses) && AddrsParse(request.srcPeer, parses)
    ensures r.stream.None? ==> r.channel == ValidateAddrs(request, ch, parses).channel
    ensures r.stream.None? ==> StatusMessage(SUCCESS) !in r.channel.sent[|ch.sent|..]
    ensures r.stream.Some? ==>
              && r.channel.sent == ch.sent + [StatusMessage(SUCCESS)]
              && r.channel.phase == Rested
              && r.stream == Some(Raw(ch.incoming))
  {
    var checked := ValidateAddrs(request, ch, parses);
    if !checked.passed then
      StopHandled(None, checked.channel)
    else
      var written := Write(checked.channel, StatusMessage(SUCCESS));
      var handoff := Rest(written);
      StopHandled(Some(handoff.stream), handoff.channel)
  }

  /** What `stop` leaves behind: the handler it opened (if any) and its outcome. */
  datatype StopCall = StopCall(channel: Option<Channel>, result: Result<Option<Raw>, StreamError>)

  /** The relay's handler accepted: the STOP request was answered with SUCCESS. */
  predicate Accepted(call: StopCall)
  {
    call.result.Ok? && call.result.value.Some?
  }

  /**
   * `stop`: opens a stream, writes the request unchanged, reads one reply.
   * No reply: close, no stream. SUCCESS: the rest stream. Any other code:
   * close, no stream. A failure to open the stream, or a stream error while
   * reading, is thrown.
   */
  function Stop(request: Message, remote: Remote): (r: StopCall)
    ensures remote.Unreachable? ==> r == StopCall(None, Err(OpenFailed))
    ensures remote.Answers? ==> r.channel.Some? && r.channel.value.sent == [request]
    ensures remote.Answers? ==>
              var first := Read(Write(Open(remote.reply), request)).result;
              && (Accepted(r) <==> first.Got? && first.msg.code == Some(SUCCESS))
              && (first.NoMessage? ==> r.result == Ok(None))
              && (first.Got? && first.msg.code != Some(SUCCESS) ==> r.result == Ok(None))
              && (first.ReadFailed? ==> r.result == Err(first.error))
    ensures Accepted(r) ==> r.channel.value.phase == Rested
    ensures r.result == Ok(None) ==> r.channel.value.phase == Closed
    ensures r.result.Err? && remote.Answers? ==> r.channel.value.phase == Framed
  {
    match remote
    case Unreachable => StopCall(None, Err(OpenFailed))
    case Answers(reply) =>
      var received := Read(Write(Open(reply), request));
      match received.result
      case NoMessage => StopCall(Some(Close(received.channel)), Ok(None))
      case ReadFailed(e) => StopCall(Some(received.channel), Err(e))
      case Got(response) =>
        if response.code == Some(SUCCESS) then
          var handoff := Rest(received.channel);
          StopCall(Some(handoff.channel), Ok(Some(handoff.stream)))
        else
          StopCall(Some(Close(received.channel)), Ok(None))
  }

  /** A SUCCESS reply gives the relay the destination's stream past that reply. */
  lemma StopSucceeds(request: Message, response: Message, after: Bytes)
    requires response.code == Some(SUCCESS)
    requires |MessageCodec.Encode(response)| <= DefaultMaxLength
    ensures Stop(request, Answers(Wire([response]) + after)).result == Ok(Some(Raw(after)))
  {
    var ch := Write(Open(Wire([response]) + after), request);
    assert Wire([response]) == Frame(MessageCodec.Encode(response));
    ReadWritten(ch, response, after);
  }

  /** Any other reply leaves the relay with no stream and a closed handler. */
  lemma StopDeclined(request: Message, response: Message, after: Bytes)
    requires response.code != Some(SUCCESS)
    requires |MessageCodec.Encode(response)| <= DefaultMaxLength
    ensures var call := Stop(request, Answers(Wire([response]) + after));
            call.result == Ok(None) && call.channel.value.phase == Closed
  {
    var ch := Write(Open(Wire([response]) + after), request);
    assert Wire([response]) == Frame(MessageCodec.Encode(response));
    ReadWritten(ch, response, after);
  }

  /**
   * The two halves together: a destination that reads the relay's STOP frame
   * and runs `handleStop` accepts exactly when the request's addresses parse,
   * and the relay's `stop` then gets the destination's stream.
   */
  lemma StopMeetsHandleStop(request: Message, parses: Bytes -> bool, after: Bytes)
    requires |MessageCodec.Encode(request)| <= DefaultMaxLength
    ensures Read(Open(Wire([request]))).result == Got(request)
    ensures var answered := HandleStop(request, Read(Open(Wire([request]))).channel, parses);
            var call := Stop(request, Answers(Wire(answered.channel.sent) + after));
            && call.result.Ok?
            && (Accepted(call) <==> AddrsParse(request.dstPeer, parses) && AddrsParse(request.srcPeer, parses))
            && (Accepted(call) ==> call.result.value == Some(Raw(after)))
  {
    var dst := Open(Wire([request]));
    assert Wire([request]) == Frame(MessageCodec.Encode(request)) + [];
    ReadWritten(dst, request, []);
    var answered := HandleStop(request, Read(dst).channel, parses);
    var checked := ValidateAddrs(request, Read(dst).channel, parses);
    if answered.stream.Some? {
      StopSucceeds(request, StatusMessage(SUCCESS), after);
    } else {
      var reply := checked.channel.sent[0];
      assert checked.channel.sent == [reply];
      assert reply.code != Some(SUCCESS);
      assert MessageCodec.Encode(reply) == MessageCodec.Encode(StatusMessage(reply.code.value));
      StopDeclined(request, reply, after);
    }
  }
}

=== FILE: circuit_utils.dfy ===
/**
 * Shared helpers of the relay handlers: writing a STATUS reply and validating
 * the address lists of an incoming HOP or STOP request.
 */
module CircuitUtils {
  import opened Wrappers
  import opened RelayMessage
  import opened StreamHandler

  /**
   * A peer's address list passes when the peer is absent or every address on it
   * parses as a multiaddr (`parses` stands for the multiaddr parser).
   */
  predicate AddrsParse(p: Option<Peer>, parses: Bytes -> bool)
  {
    p.None? || forall i :: 0 <= i < |p.value.addrs| ==> parses(p.value.addrs[i])
  }

  /** The code for a bad destination list: the HOP flavour for HOP messages, else the STOP one. */
  function DstInvalid(t: MsgType): Status
  {
    if t == HOP then HOP_DST_MULTIADDR_INVALID else STOP_DST_MULTIADDR_INVALID
  }

  /** The code for a bad source list: the HOP flavour for HOP messages, else the STOP one. */
  function SrcInvalid(t: MsgType): Status
  {
    if t == HOP then HOP_SRC_MULTIADDR_INVALID else STOP_SRC_MULTIADDR_INVALID
  }

  /** `writeResponse`: one STATUS message carrying `code`; the handler stays open. */
  function WriteResponse(ch: Channel, code: Status): (r: Channel)
    requires ch.phase == Framed
    ensures r.phase == Framed && r.incoming == ch.incoming
    ensures |r.sent| == |ch.sent| + 1 && r.sent[..|ch.sent|] == ch.sent
    ensures r.sent[|ch.sent|].msgType == STATUS && r.sent[|ch.sent|].code == Some(code)
    ensures r.sent[|ch.sent|].srcPeer.None? && r.sent[|ch.sent|].dstPeer.None?
  {
    Write(ch, StatusMessage(code))
  }

  datatype Checked = Checked(passed: bool, channel: Channel)

  /**
   * `validateAddrs`: the destination list is checked first, then the source
   * list. The first list holding an address that does not parse gets one STATUS
   * reply with that list's code, and validation fails; the handler is never
   * closed here.
   */
  function ValidateAddrs(msg: Message, ch: Channel, parses: Bytes -> bool): (r: Checked)
    requires ch.phase == Framed
    ensures r.passed <==> AddrsParse(msg.dstPeer, parses) && AddrsParse(msg.srcPeer, parses)
    ensures r.passed ==> r.channel == ch
    ensures !AddrsParse(msg.dstPeer, parses) ==>
              r.channel == WriteResponse(ch, DstInvalid(msg.msgType))
    ensures AddrsParse(msg.dstPeer, parses) && !AddrsParse(msg.srcPeer, parses) ==>
              r.channel == WriteResponse(ch, SrcInvalid(msg.msgType))
    ensures r.channel.phase == Framed && r.channel.incoming == ch.incoming
    ensures |r.channel.sent| <= |ch.sent| + 1
    ensures forall i :: |ch.sent| <= i < |r.channel.sent| ==>
              r.channel.sent[i].msgType == STATUS && r.channel.sent[i].code != Some(SUCCESS)
  {
    if !AddrsParse(msg.dstPeer, parses) then
      Checked(false, WriteResponse(ch, DstInvalid(msg.msgType)))
    else if !AddrsParse(msg.srcPeer, parses) then
      Checked(false, WriteResponse(ch, SrcInvalid(msg.msgType)))
    else
      Checked(true, ch)
  }
}

=== FILE: content_routing.dfy ===
/**
 * `CompoundContentRouting`: the started guard, the empty-router checks, and
 * `put` / `get` / `getMany` over the finite sequence of events one DHT query
 * yields.
 */
module ContentRouting {
  import opened Wrappers
  import opened RelayMessage

  /** A DHT query event; only VALUE events carry a record. */
  datatype DhtEvent = ValueEvent(from: string, value: Bytes) | OtherEvent(name: string)

  /** One record `getMany` yields: the peer it came from and its value. */
  datatype Found = Found(from: string, val: Bytes)

  /** `DhtFailed` carries what a DHT call threw; the router passes it on unchanged. */
  datatype RoutingError = NoRoutersAvailable | NotStarted | NotFound | DhtFailed(reason: string)

  /** The number of content routers, the started flag, and whether a DHT is configured. */
  datatype Router = Router(routers: nat, started: bool, hasDht: bool)

  function NewRouter(routers: nat, hasDht: bool): (r: Router)
    ensures !r.started && r.routers == routers && r.hasDht == hasDht
  {
    Router(routers, false, hasDht)
  }

  function Start(r: Router): (r': Router)
    ensures r'.started && r'.routers == r.routers && r'.hasDht == r.hasDht
  {
    r.(started := true)
  }

  function Stop(r: Router): (r': Router)
    ensures !r'.started && r'.routers == r.routers && r'.hasDht == r.hasDht
  {
    r.(started := false)
  }

  /** `findProviders` and `provide`: refused when there is no router; merging the routers is not modelled. */
  function RequireRouters(r: Router): (res: Result<(), RoutingError>)
    ensures res.Err? <==> r.routers == 0
    ensures res.Err? ==> res.error == NoRoutersAvailable
  {
    if r.routers == 0 then Err(NoRoutersAvailable) else Ok(())
  }

  /** Whether `put` handed the record to the DHT or found no DHT to hand it to. */
  datatype Stored = HandedToDht | NoDht

  /**
   * `put`: refused before `start`; afterwards a no-op without a DHT, and
   * otherwise as good as draining the DHT's own `put`, whose outcome is
   * `drained`.
   */
  function Put(r: Router, drained: Result<(), string>): (res: Result<Stored, RoutingError>)
    ensures !r.started <==> res == Err(NotStarted)
    ensures r.started && !r.hasDht ==> res == Ok(NoDht)
    ensures r.started && r.hasDht ==> (res.Ok? <==> drained.Ok?)
    ensures r.started && r.hasDht && res.Ok? ==> res.value == HandedToDht
    ensures r.started && r.hasDht && drained.Err? ==> res == Err(DhtFailed(drained.error))
  {
    if !r.started then Err(NotStarted)
    else if !r.hasDht then Ok(NoDht)
    else if drained.Err? then Err(DhtFailed(drained.error))
    else Ok(HandedToDht)
  }

  /**
   * `put` is accepted exactly between a `start` and the next `stop`, whatever
   * came before, unless the DHT itself fails.
   */
  lemma PutFollowsLifecycle(r: Router, drained: Result<(), string>)
    ensures Put(Start(r), Ok(())).Ok? && Put(Start(r), drained) == Put(Start(Stop(r)), drained)
    ensures Put(Stop(r), drained) == Err(NotStarted) && Put(Stop(Start(r)), drained) == Err(NotStarted)
    ensures Put(NewRouter(r.routers, r.hasDht), drained) == Err(NotStarted)
  {
  }

  /** The records of the VALUE events, in event order. */
  function Values(events: seq<DhtEvent>): seq<Found>
  {
    if |events| == 0 then []
    else
      (if events[0].ValueEvent? then [Found(events[0].from, events[0].value)] else [])
      + Values(events[1..])
  }

  lemma {:induction false} ValuesAppend(a: seq<DhtEvent>, b: seq<DhtEvent>)
    ensures Values(a + b) == Values(a) + Values(b)
    decreases |a|
  {
    if |a| == 0 {
      assert a + b == b;
    } else {
      assert (a + b)[0] == a[0];
      assert (a + b)[1..] == a[1..] + b;
      ValuesAppend(a[1..], b);
    }
  }

  lemma ValuesPrefixStep(events: seq<DhtEvent>, i: nat)
    requires i < |events|
    ensures Values(events[..i + 1]) ==
            Values(events[..i]) + (if events[i].ValueEvent? then [Found(events[i].from, events[i].value)] else [])
  {
    assert events[..i + 1] == events[..i] + [events[i]];
    ValuesAppend(events[..i], [events[i]]);
    assert [events[i]][1..] == [];
  }

  /**
   * `get`: the value of the first VALUE event; NOT_FOUND without a DHT or
   * without one. The DHT query yields `events` and then, when `failure` is
   * present, throws it, which `get` passes on.
   */
  method Get(r: Router, events: seq<DhtEvent>, failure: Option<string>) returns (res: Result<Bytes, RoutingError>)
    ensures !r.started ==> res == Err(NotStarted)
    ensures r.started && !r.hasDht ==> res == Err(NotFound)
    ensures r.started && r.hasDht && Values(events) == [] && failure.None? ==> res == Err(NotFound)
    ensures r.started && r.hasDht && Values(events) == [] && failure.Some? ==> res == Err(DhtFailed(failure.value))
    ensures r.started && r.hasDht && Values(events) != [] ==> res == Ok(Values(events)[0].val)
  {
    if !r.started {
      return Err(NotStarted);
    }
    if r.hasDht {
      var i := 0;
      while i < |events|
        invariant 0 <= i <= |events|
        invariant Values(events[..i]) == []
      {
        ValuesPrefixStep(events, i);
        if events[i].ValueEvent? {
          ValuesAppend(events[..i + 1], events[i + 1..]);
          assert events[..i + 1] + events[i + 1..] == events;
          return Ok(events[i].value);
        }
        i := i + 1;
      }
      assert events[..i] == events;
      if failure.Some? {
        return Err(DhtFailed(failure.value));
      }
    }
    return Err(NotFound);
  }

  /**
   * `getMany`: with `nVals` absent or 0 nothing is yielded and nothing fails.
   * Otherwise the VALUE records are yielded in event order, and reading stops
   * at once when `nVals` have been yielded (a negative `nVals` is never
   * reached); NOT_FOUND when none was yielded. The DHT query yields
   * `events` and then, when `failure` is present, throws it; a query read to
   * its end passes that error on after whatever was already yielded.
   * `yielded` is what the caller received, `res` how the generator ended,
   * and `consumed` counts the DHT events read.
   */
  method GetMany(r: Router, nVals: Option<int>, events: seq<DhtEvent>, failure: Option<string>)
    returns (yielded: seq<Found>, res: Result<(), RoutingError>, consumed: nat)
    ensures consumed <= |events|
    ensures !r.started ==> yielded == [] && res == Err(NotStarted) && consumed == 0
    ensures r.started && (nVals == None || nVals == Some(0)) ==> yielded == [] && res == Ok(()) && consumed == 0
    ensures r.started && nVals.Some? && nVals.value != 0 ==>
              var all := Values(events);
              var want := nVals.value;
              var taken := if !r.hasDht then [] else if 0 < want < |all| then all[..want] else all;
              var queryThrows := r.hasDht && |taken| != want && failure.Some?;
              && yielded == taken
              && (queryThrows ==> res == Err(DhtFailed(failure.value)))
              && (!queryThrows ==> res == (if taken == [] then Err(NotFound) else Ok(())))
              && Values(events[..consumed]) == taken
              // the query is read to its end unless `nVals` records were reached
              && (r.hasDht && |taken| != want ==> consumed == |events|)
              && (r.hasDht && consumed < |events| ==> |taken| == want && events[consumed - 1].ValueEvent?)
              // reading stops right after the last record needed, and no event is read without a DHT
              && (r.hasDht && |taken| == want ==> 0 < consumed && events[consumed - 1].ValueEvent?)
              && (!r.hasDht ==> consumed == 0)
  {
    if !r.started {
      return [], Err(NotStarted), 0;
    }
    if nVals == None || nVals == Some(0) {
      return [], Ok(()), 0;
    }
    var want := nVals.value;
    var got: seq<Found> := [];
    var i := 0;
    if r.hasDht {
      while i < |events|
        invariant 0 <= i <= |events|
        invariant got == Values(events[..i])
        invariant want <= 0 || |got| < want
      {
        ValuesPrefixStep(events, i);
        if events[i].ValueEvent? {
          got := got + [Found(events[i].from, events[i].value)];
          i := i + 1;
          if |got| == want {
            break;
          }
        } else {
          i := i + 1;
        }
      }
      ValuesAppend(events[..i], events[i..]);
      assert events[..i] + events[i..] == events;
      if i < |events| {
        assert |got| == want && events[i - 1].ValueEvent?;
        assert Values(events)[..want] == got;
        if want == |Values(events)| {
          assert Values(events)[..want] == Values(events);
        }
      } else {
        assert events[..i] == events;
      }
    } else {
      assert events[..i] == [];
    }
    yielded, consumed := got, i;
    if r.hasDht && |got| != want && failure.Some? {
      res := Err(DhtFailed(failure.value));
    } else if |got| == 0 {
      res := Err(NotFound);
    } else {
      res := Ok(());
    }
  }
}

=== FILE: message_codec.dfy ===
/**
 * The message body encoding. The repository serialises messages with a
 * generated protobuf codec that is not part of this model; this module is a
 * concrete stand-in with the one property the framed channel relies on:
 * decoding an encoded message gives the message back.
 *
 * Layout: one type byte; each optional peer as a presence byte followed by the
 * length-prefixed id and a counted list of length-prefixed addresses; the
 * optional code as a presence byte followed by one code byte.
 */
module MessageCodec {
  import opened Wrappers
  import opened Varint
  import opened RelayMessage

  function TypeByte(t: MsgType): byte
  {
    match t
    case HOP => 1
    case STOP => 2
    case STATUS => 3
    case CAN_HOP => 4
  }

  function ByteType(b: byte): Option<MsgType>
  {
    if b == 1 then Some(HOP)
    else if b == 2 then Some(STOP)
    else if b == 3 then Some(STATUS)
    else if b == 4 then Some(CAN_HOP)
    else None
  }

  function StatusByte(c: Status): byte
  {
    match c
    case SUCCESS => 0
    case HOP_SRC_MULTIADDR_INVALID => 1
    case HOP_DST_MULTIADDR_INVALID => 2
    case HOP_NO_CONN_TO_DST => 3
    case HOP_CANT_SPEAK_RELAY => 4
    case STOP_SRC_MULTIADDR_INVALID => 5
    case STOP_DST_MULTIADDR_INVALID => 6
  }

  function ByteStatus(b: byte): Option<Status>
  {
    if b == 0 then Some(SUCCESS)
    else if b == 1 then Some(HOP_SRC_MULTIADDR_INVALID)
    else if b == 2 then Some(HOP_DST_MULTIADDR_INVALID)
    else if b == 3 then Some(HOP_NO_CONN_TO_DST)
    else if b == 4 then Some(HOP_CANT_SPEAK_RELAY)
    else if b == 5 then Some(STOP_SRC_MULTIADDR_INVALID)
    else if b == 6 then Some(STOP_DST_MULTIADDR_INVALID)
    else None
  }

  // ---- length-prefixed byte strings ----

  function EncodeBytes(b: Bytes): seq<byte>
  {
    Varint.Encode(|b|) + b
  }

  function DecodeBytes(s: seq<byte>): (r: Option<(Bytes, seq<byte>)>)
    ensures r.Some? ==> |r.value.1| < |s|
  {
    match Varint.Decode(s)
    case None => None
    case Some((n, rest)) => if n <= |rest| then Some((rest[..n], rest[n..])) else None
  }

  lemma DecodeEncodeBytes(b: Bytes, rest: seq<byte>)
    ensures DecodeBytes(EncodeBytes(b) + rest) == Some((b, rest))
  {
    assert EncodeBytes(b) + rest == Varint.Encode(|b|) + (b + rest);
    Varint.DecodeEncode(|b|, b + rest);
    assert (b + rest)[..|b|] == b;
    assert (b + rest)[|b|..] == rest;
  }

  // ---- counted lists of byte strings ----

  function EncodeItems(items: seq<Bytes>): seq<byte>
  {
    if |items| == 0 then [] else EncodeBytes(items[0]) + EncodeItems(items[1..])
  }

  function DecodeItems(count: nat, s: seq<byte>): (r: Option<(seq<Bytes>, seq<byte>)>)
    ensures r.Some? ==> |r.value.1| <= |s| && |r.value.0| == count
    decreases count
  {
    if count == 0 then Some(([], s))
    else
      match DecodeBytes(s)
      case None => None
      case Some((item, rest)) =>
        match DecodeItems(count - 1, rest)
        case None => None
        case Some((items, rest')) => Some(([item] + items, rest'))
  }

  lemma {:induction false} DecodeEncodeItems(items: seq<Bytes>, rest: seq<byte>)
    ensures DecodeItems(|items|, EncodeItems(items) + rest) == Some((items, rest))
    decreases |items|
  {
    if |items| == 0 {
      assert EncodeItems(items) + rest == rest;
    } else {
      var tail := EncodeItems(items[1..]) + rest;
      assert EncodeItems(items) + rest == EncodeBytes(items[0]) + tail;
      DecodeEncodeBytes(items[0], tail);
      DecodeEncodeItems(items[1..], rest);
      assert [items[0]] + items[1..] == items;
    }
  }

  function EncodeList(items: seq<Bytes>): seq<byte>
  {
    Varint.Encode(|items|) + EncodeItems(items)
  }

  function DecodeList(s: seq<byte>): Option<(seq<Bytes>, seq<byte>)>
  {
    match Varint.Decode(s)
    case None => None
    case Some((count, rest)) => DecodeItems(count, rest)
  }

  lemma DecodeEncodeList(items: seq<Bytes>, rest: seq<byte>)
    ensures DecodeList(EncodeList(items) + rest) == Some((items, rest))
  {
    assert EncodeList(items) + rest == Varint.Encode(|items|) + (EncodeItems(items) + rest);
    Varint.DecodeEncode(|items|, EncodeItems(items) + rest);
    DecodeEncodeItems(items, rest);
  }

  // ---- optional peers ----

  function EncodePeer(p: Option<Peer>): seq<byte>
  {
    match p
    case None => [0]
    case Some(peer) => [1] + EncodePeerFields(peer)
  }

  function EncodePeerFields(peer: Peer): seq<byte>
  {
    EncodeBytes(peer.id) + EncodeList(peer.addrs)
  }

  function DecodePeer(s: seq<byte>): Option<(Option<Peer>, seq<byte>)>
  {
    if |s| == 0 then None
    else if s[0] == 0 then Some((None, s[1..]))
    else if s[0] != 1 then None
    else DecodePeerFields(s[1..])
  }

  /** A present peer's id and address list. */
  function DecodePeerFields(s: seq<byte>): Option<(Option<Peer>, seq<byte>)>
  {
    match DecodeBytes(s)
    case None => None
    case Some((id, rest)) =>
      match DecodeList(rest)
      case None => None
      case Some((addrs, rest')) => Some((Some(Peer(id, addrs)), rest'))
  }

  lemma DecodeEncodePeerFields(peer: Peer, rest: seq<byte>)
    ensures DecodePeerFields(EncodePeerFields(peer) + rest) == Some((Some(peer), rest))
  {
    var tail := EncodeList(peer.addrs) + rest;
    assert EncodePeerFields(peer) + rest == EncodeBytes(peer.id) + tail;
    DecodeEncodeBytes(peer.id, tail);
    DecodeEncodeList(peer.addrs, rest);
  }

  /** A tag byte in front of `a + b` is dropped again by `[1..]`. */
  lemma TaggedSplit(tag: byte, a: seq<byte>, b: seq<byte>)
    ensures ([tag] + a + b)[0] == tag && ([tag] + a + b)[1..] == a + b
  {
  }

  lemma DecodeEncodePeer(p: Option<Peer>, rest: seq<byte>)
    ensures DecodePeer(EncodePeer(p) + rest) == Some((p, rest))
  {
    if p.Some? {
      TaggedSplit(1, EncodePeerFields(p.value), rest);
      DecodeEncodePeerFields(p.value, rest);
    } else {
      TaggedSplit(0, [], rest);
      assert EncodePeer(p) == [0] + [];
    }
  }

  // ---- optional status code ----

  function EncodeCode(c: Option<Status>): seq<byte>
  {
    match c
    case None => [0]
    case Some(code) => [1, StatusByte(code)]
  }

  function DecodeCode(s: seq<byte>): Option<(Option<Status>, seq<byte>)>
  {
    if |s| == 0 then None
    else if s[0] == 0 then Some((None, s[1..]))
    else if s[0] != 1 || |s| < 2 then None
    else
      match ByteStatus(s[1])
      case None => None
      case Some(code) => Some((Some(code), s[2..]))
  }

  lemma DecodeEncodeCode(c: Option<Status>, rest: seq<byte>)
    ensures DecodeCode(EncodeCode(c) + rest) == Some((c, rest))
  {
    var s := EncodeCode(c) + rest;
    if c.Some? {
      assert ByteStatus(StatusByte(c.value)) == Some(c.value);
      assert s[1] == StatusByte(c.value);
      assert s[2..] == rest;
    } else {
      assert s[1..] == rest;
    }
  }

  // ---- whole messages ----

  /** The body of one frame. */
  function Encode(m: Message): seq<byte>
  {
    [TypeByte(m.msgType)] + EncodeFields(m)
  }

  /** The two peers and the code, in that order. */
  function EncodeFields(m: Message): seq<byte>
  {
    EncodePeer(m.srcPeer) + (EncodePeer(m.dstPeer) + EncodeCode(m.code))
  }

  /** Decodes a whole frame body; trailing bytes make the body malformed. */
  function Decode(body: seq<byte>): Option<Message>
  {
    if |body| == 0 then None
    else
      match ByteType(body[0])
      case None => None
      case Some(t) => DecodeFields(t, body[1..])
  }

  /** The two peers and the code after the type byte, which must use up the body. */
  function DecodeFields(t: MsgType, s: seq<byte>): Option<Message>
  {
    match DecodePeer(s)
    case None => None
    case Some((src, rest)) =>
      match DecodePeer(rest)
      case None => None
      case Some((dst, rest')) =>
        match DecodeCode(rest')
        case None => None
        case Some((code, rest'')) =>
          if |rest''| == 0 then Some(Message(t, src, dst, code)) else None
  }

  lemma DecodeEncodeFields(m: Message)
    ensures DecodeFields(m.msgType, EncodeFields(m)) == Some(m)
  {
    var codeBytes := EncodeCode(m.code);
    DecodeEncodePeer(m.srcPeer, EncodePeer(m.dstPeer) + codeBytes);
    DecodeEncodePeer(m.dstPeer, codeBytes);
    assert codeBytes == codeBytes + [];
    DecodeEncodeCode(m.code, []);
  }

  /** Decoding inverts encoding. */
  lemma DecodeEncode(m: Message)
    ensures Decode(Encode(m)) == Some(m)
  {
    var body := Encode(m);
    assert ByteType(TypeByte(m.msgType)) == Some(m.msgType);
    assert body[0] == TypeByte(m.msgType) && body[1..] == EncodeFields(m);
    DecodeEncodeFields(m);
  }

  /** So the encoding is injective: distinct messages never share a body. */
  lemma EncodeInjective(m1: Message, m2: Message)
    requires Encode(m1) == Encode(m2)
    ensures m1 == m2
  {
    DecodeEncode(m1);
    DecodeEncode(m2);
  }
}

=== FILE: relay_message.dfy ===
/**
 * The circuit relay (v1) protocol message: a type, optional source and
 * destination peers, and an optional status code.
 */
module RelayMessage {
  import opened Wrappers
  import opened Varint

  type Bytes = seq<byte>

  /** The four message kinds; requests are HOP, STOP and CAN_HOP, replies are STATUS. */
  datatype MsgType = HOP | STOP | STATUS | CAN_HOP

  /** The status codes this core writes; every one but SUCCESS ends a negotiation. */
  datatype Status =
    | SUCCESS
    | HOP_SRC_MULTIADDR_INVALID
    | HOP_DST_MULTIADDR_INVALID
    | HOP_NO_CONN_TO_DST
    | HOP_CANT_SPEAK_RELAY
    | STOP_SRC_MULTIADDR_INVALID
    | STOP_DST_MULTIADDR_INVALID

  /** A peer as carried in a message: its identity bytes and its candidate addresses. */
  datatype Peer = Peer(id: Bytes, addrs: seq<Bytes>)

  datatype Message = Message(
    msgType: MsgType,
    srcPeer: Option<Peer>,
    dstPeer: Option<Peer>,
    code: Option<Status>)

  /** A STATUS reply carrying `code` and nothing else. */
  function StatusMessage(code: Status): Message
  {
    Message(STATUS, None, None, Some(code))
  }
}

=== FILE: signal_addrs.dfy ===
/**
 * Multiaddrs as the WebRTC signalling transport sees them: a list of
 * protocol components with a textual form, the transport's address filter,
 * and the textual splitting that `dial` and `listen` perform.
 */
module SignalAddrs {
  import opened Wrappers

  /** The multicodec code of the circuit relay protocol (`p2p-circuit`). */
  const CircuitCode: nat := 290
  /** The multicodec code of `p2p-webrtc-star`. */
  const WebRtcStarCode: nat := 275

  const WebRtcStarName: string := "p2p-webrtc-star"
  /** The text `dial` splits on. */
  const WebRtcStarSep: string := "/p2p-webrtc-star"
  /** The text `listen` splits on. */
  const CircuitSep: string := "/p2p-circuit"

  /** One protocol of a multiaddr: its code, its name and its value (empty when it takes none). */
  datatype Component = Component(code: nat, name: string, value: string)

  type Multiaddr = seq<Component>

  /** The component `encapsulate('/p2p-webrtc-star')` appends. */
  const WebRtcStar: Component := Component(WebRtcStarCode, WebRtcStarName, "")

  /** A connection to a remote peer: who it is, its address, and whether opening a stream on it succeeds. */
  datatype Connection = Connection(remotePeer: string, remoteAddr: Multiaddr, opensStream: bool)

  function ProtoCodes(ma: Multiaddr): seq<nat>
  {
    seq(|ma|, i requires 0 <= i < |ma| => ma[i].code)
  }

  function ProtoNames(ma: Multiaddr): seq<string>
  {
    seq(|ma|, i requires 0 <= i < |ma| => ma[i].name)
  }

  function ComponentText(c: Component): string
  {
    "/" + c.name + (if c.value == "" then "" else "/" + c.value)
  }

  /** `toString()`. */
  function Text(ma: Multiaddr): string
  {
    if |ma| == 0 then "" else ComponentText(ma[0]) + Text(ma[1..])
  }

  lemma {:induction false} TextAppend(ma: Multiaddr, c: Component)
    ensures Text(ma + [c]) == Text(ma) + ComponentText(c)
    decreases |ma|
  {
    if |ma| == 0 {
      assert ma + [c] == [c];
      assert [c][1..] == [];
    } else {
      assert (ma + [c])[1..] == ma[1..] + [c];
      TextAppend(ma[1..], c);
    }
  }

  lemma StarText()
    ensures ComponentText(WebRtcStar) == WebRtcStarSep
  {
    assert "/" + WebRtcStarName + "" == WebRtcStarSep;
  }

  /** `encapsulate('/p2p-webrtc-star')`: the address followed by the webrtc-star component. */
  function EncapsulateWebRtcStar(ma: Multiaddr): (r: Multiaddr)
    ensures Text(r) == Text(ma) + WebRtcStarSep
    ensures WebRtcStarName in ProtoNames(r)
    ensures CircuitCode in ProtoCodes(r) <==> CircuitCode in ProtoCodes(ma)
  {
    TextAppend(ma, WebRtcStar);
    StarText();
    assert ProtoNames(ma + [WebRtcStar])[|ma|] == WebRtcStarName;
    assert forall i :: 0 <= i < |ma| ==> ProtoCodes(ma + [WebRtcStar])[i] == ProtoCodes(ma)[i];
    ma + [WebRtcStar]
  }

  // ---- the transport's filter ----

  /** An address the signalling transport dials: webrtc-star, and not through a circuit relay. */
  predicate IsSignalAddr(ma: Multiaddr)
  {
    CircuitCode !in ProtoCodes(ma) && WebRtcStarName in ProtoNames(ma)
  }

  /** `filter`: keeps the signalling addresses, in their original order. */
  function Filter(addrs: seq<Multiaddr>): (r: seq<Multiaddr>)
    ensures |r| <= |addrs|
    ensures forall ma :: ma in r <==> ma in addrs && IsSignalAddr(ma)
  {
    if |addrs| == 0 then []
    else (if IsSignalAddr(addrs[0]) then [addrs[0]] else []) + Filter(addrs[1..])
  }

  /** Order is kept: filtering a concatenation concatenates the filtered halves. */
  lemma {:induction false} FilterAppend(a: seq<Multiaddr>, b: seq<Multiaddr>)
    ensures Filter(a + b) == Filter(a) + Filter(b)
    decreases |a|
  {
    if |a| == 0 {
      assert a + b == b;
    } else {
      assert (a + b)[0] == a[0];
      assert (a + b)[1..] == a[1..] + b;
      FilterAppend(a[1..], b);
    }
  }

  /** The address AutoSignal listens on passes the filter exactly when the relay's address has no circuit. */
  lemma ListenAddrFiltered(remote: Multiaddr)
    ensures Filter([EncapsulateWebRtcStar(remote)]) ==
            if CircuitCode in ProtoCodes(remote) then [] else [EncapsulateWebRtcStar(remote)]
  {
    var ma := EncapsulateWebRtcStar(remote);
    assert [ma][1..] == [];
  }

  // ---- JavaScript's String.prototype.split and includes ----

  /** `s.includes(sep)`. */
  predicate Occurs(s: string, sep: string)
    decreases |s|
  {
    |s| >= |sep| && (s[..|sep|] == sep || Occurs(s[1..], sep))
  }

  lemma {:induction false} OccursInSuffix(a: string, b: string, sep: string)
    requires Occurs(b, sep)
    ensures Occurs(a + b, sep)
    decreases |a|
  {
    if |a| > 0 {
      assert (a + b)[1..] == a[1..] + b;
      OccursInSuffix(a[1..], b, sep);
    } else {
      assert a + b == b;
    }
  }

  /** `s.split(sep)`: the pieces between the non-overlapping occurrences of `sep`, scanning left to right. */
  function Split(s: string, sep: string): (parts: seq<string>)
    requires |sep| > 0
    ensures |parts| >= 1
    ensures |parts[0]| <= |s| && s[..|parts[0]|] == parts[0]
    decreases |s|
  {
    if |s| < |sep| then [s]
    else if s[..|sep|] == sep then [""] + Split(s[|sep|..], sep)
    else
      var rest := Split(s[1..], sep);
      assert s[..1 + |rest[0]|] == [s[0]] + s[1..][..|rest[0]|];
      [[s[0]] + rest[0]] + rest[1..]
  }

  /** `parts.join(sep)`. */
  function Join(parts: seq<string>, sep: string): string
    requires |parts| >= 1
  {
    if |parts| == 1 then parts[0] else parts[0] + sep + Join(parts[1..], sep)
  }

  lemma JoinConsChar(c: char, x: string, tail: seq<string>, sep: string)
    ensures Join([[c] + x] + tail, sep) == [c] + Join([x] + tail, sep)
  {
    assert ([[c] + x] + tail)[1..] == tail;
    assert ([x] + tail)[1..] == tail;
  }

  /** Joining the pieces with the separator gives the text back. */
  lemma {:induction false} SplitJoin(s: string, sep: string)
    requires |sep| > 0
    ensures Join(Split(s, sep), sep) == s
    decreases |s|
  {
    if |s| < |sep| {
    } else if s[..|sep|] == sep {
      SplitJoin(s[|sep|..], sep);
      assert ([""] + Split(s[|sep|..], sep))[1..] == Split(s[|sep|..], sep);
      assert s == s[..|sep|] + s[|sep|..];
    } else {
      var rest := Split(s[1..], sep);
      SplitJoin(s[1..], sep);
      JoinConsChar(s[0], rest[0], rest[1..], sep);
      assert [rest[0]] + rest[1..] == rest;
      assert s == [s[0]] + s[1..];
    }
  }

  /** No piece contains the separator. */
  lemma {:induction false} SplitPartsSepFree(s: string, sep: string)
    requires |sep| > 0
    ensures forall i :: 0 <= i < |Split(s, sep)| ==> !Occurs(Split(s, sep)[i], sep)
    decreases |s|
  {
    var parts := Split(s, sep);
    if |s| < |sep| {
      assert parts == [s];
    } else if s[..|sep|] == sep {
      SplitPartsSepFree(s[|sep|..], sep);
      var rest := Split(s[|sep|..], sep);
      assert parts == [""] + rest;
      forall i | 0 <= i < |parts| ensures !Occurs(parts[i], sep) {
        if i > 0 { assert parts[i] == rest[i - 1]; }
      }
    } else {
      var rest := Split(s[1..], sep);
      SplitPartsSepFree(s[1..], sep);
      var first := [s[0]] + rest[0];
      assert parts == [first] + rest[1..];
      assert !Occurs(first, sep) by {
        assert first[1..] == rest[0];
        assert s[1..][..|rest[0]|] == rest[0];
        if |first| >= |sep| {
          assert first == s[..|first|];
          assert first[..|sep|] == s[..|sep|];
        }
      }
      forall i | 0 <= i < |parts| ensures !Occurs(parts[i], sep) {
        if i > 0 { assert parts[i] == rest[i]; }
      }
    }
  }

  lemma {:induction false} JoinLast(parts: seq<string>, sep: string)
    requires |parts| >= 2
    ensures Join(parts, sep) == Join(parts[..|parts| - 1], sep) + sep + parts[|parts| - 1]
    decreases |parts|
  {
    if |parts| > 2 {
      JoinLast(parts[1..], sep);
      assert parts[1..][..|parts[1..]| - 1] == parts[..|parts| - 1][1..];
    }
  }

  /** With more than one piece, the text starts with the first piece and a separator, so the separator occurs. */
  lemma SplitHead(text: string, sep: string)
    requires |sep| > 0 && |Split(text, sep)| > 1
    ensures var first := Split(text, sep)[0];
            && |first| + |sep| <= |text| && text[..|first| + |sep|] == first + sep
            && Occurs(text, sep)
  {
    var parts := Split(text, sep);
    var after := Join(parts[1..], sep);
    SplitJoin(text, sep);
    assert text == parts[0] + (sep + after);
    assert (sep + after)[..|sep|] == sep;
    OccursInSuffix(parts[0], sep + after, sep);
    assert (parts[0] + (sep + after))[..|parts[0]| + |sep|] == parts[0] + sep;
  }

  /** With more than one piece, the text ends with a separator and the last piece. */
  lemma SplitTail(text: string, sep: string)
    requires |sep| > 0 && |Split(text, sep)| > 1
    ensures var last := Split(text, sep)[|Split(text, sep)| - 1];
            && |last| + |sep| <= |text| && text[|text| - |last| - |sep|..] == sep + last
  {
    var parts := Split(text, sep);
    var before := Join(parts[..|parts| - 1], sep);
    var last := parts[|parts| - 1];
    SplitJoin(text, sep);
    JoinLast(parts, sep);
    assert text == before + (sep + last);
    assert (before + (sep + last))[|before|..] == sep + last;
  }

  /** A text without the separator splits into itself alone. */
  lemma SplitWithoutSep(s: string, sep: string)
    requires |sep| > 0
    ensures !Occurs(s, sep) ==> Split(s, sep) == [s]
  {
    if |Split(s, sep)| > 1 {
      SplitHead(s, sep);
    } else {
      SplitJoin(s, sep);
    }
  }

  /**
   * The relay and destination texts of a webrtc-star address, as `dial` takes
   * them: the piece before the first `/p2p-webrtc-star` and the piece after the last.
   */
  function DialParts(text: string): (r: (string, string))
    ensures !Occurs(r.0, WebRtcStarSep) && !Occurs(r.1, WebRtcStarSep)
    ensures !Occurs(text, WebRtcStarSep) ==> r == (text, text)
    ensures Occurs(text, WebRtcStarSep) ==>
              && |r.0| + |WebRtcStarSep| <= |text|
              && text[..|r.0| + |WebRtcStarSep|] == r.0 + WebRtcStarSep
              && |r.1| + |WebRtcStarSep| <= |text|
              && text[|text| - |r.1| - |WebRtcStarSep|..] == WebRtcStarSep + r.1
  {
    var parts := Split(text, WebRtcStarSep);
    SplitPartsSepFree(text, WebRtcStarSep);
    SplitWithoutSep(text, WebRtcStarSep);
    if |parts| == 1 then
      SplitJoin(text, WebRtcStarSep);
      (parts[0], parts[0])
    else
      SplitHead(text, WebRtcStarSep);
      SplitTail(text, WebRtcStarSep);
      (parts[0], parts[|parts| - 1])
  }

  /** No occurrence of `sep` starts inside `a` when `a` is followed by `tail`. */
  predicate NoSepBefore(a: string, tail: string, sep: string)
    decreases |a|
  {
    |a| == 0 || ((|a + tail| < |sep| || (a + tail)[..|sep|] != sep) && NoSepBefore(a[1..], tail, sep))
  }

  /** Splitting at a separator that no earlier occurrence precedes: `a` is the first piece. */
  lemma {:induction false} SplitAtFirst(a: string, b: string, sep: string)
    requires |sep| > 0 && NoSepBefore(a, sep + b, sep)
    ensures Split(a + (sep + b), sep) == [a] + Split(b, sep)
    decreases |a|
  {
    var s := a + (sep + b);
    if |a| == 0 {
      assert s == sep + b;
      assert s[..|sep|] == sep && s[|sep|..] == b;
    } else {
      assert s[1..] == a[1..] + (sep + b);
      SplitAtFirst(a[1..], b, sep);
      var rest := Split(s[1..], sep);
      assert rest[0] == a[1..] && rest[1..] == Split(b, sep);
      assert [s[0]] + rest[0] == a;
    }
  }

  /** The only `/` in `/p2p-webrtc-star` is its first character. */
  lemma StarSepSlashes()
    ensures WebRtcStarSep[0] == '/'
    ensures forall j :: 0 < j < |WebRtcStarSep| ==> WebRtcStarSep[j] != '/'
  {
  }

  /** An occurrence of `/p2p-webrtc-star` cannot start in front of one and overlap it. */
  lemma SepNotStraddling(a: string, b: string)
    requires 0 < |a| < |WebRtcStarSep|
    ensures (a + (WebRtcStarSep + b))[..|WebRtcStarSep|] != WebRtcStarSep
  {
    var s := a + (WebRtcStarSep + b);
    StarSepSlashes();
    assert s[..|WebRtcStarSep|][|a|] == '/';
  }

  /** A text free of `/p2p-webrtc-star` has no occurrence starting in it even when the separator follows. */
  lemma {:induction false} StarSepFirst(a: string, b: string)
    requires !Occurs(a, WebRtcStarSep)
    ensures NoSepBefore(a, WebRtcStarSep + b, WebRtcStarSep)
    decreases |a|
  {
    var sep := WebRtcStarSep;
    if |a| > 0 {
      if |a| < |sep| {
        SepNotStraddling(a, b);
      }
      assert !Occurs(a[1..], sep);
      StarSepFirst(a[1..], b);
    }
  }

  /** The relay and destination texts joined by `/p2p-webrtc-star` are what `dial` takes apart again. */
  lemma DialPartsOfJoin(relay: string, destination: string)
    requires !Occurs(relay, WebRtcStarSep) && !Occurs(destination, WebRtcStarSep)
    ensures DialParts(relay + WebRtcStarSep + destination) == (relay, destination)
  {
    var text := relay + WebRtcStarSep + destination;
    assert text == relay + (WebRtcStarSep + destination);
    StarSepFirst(relay, destination);
    SplitAtFirst(relay, destination, WebRtcStarSep);
    SplitWithoutSep(destination, WebRtcStarSep);
    assert Split(text, WebRtcStarSep) == [relay, destination];
  }

  /** The first part that is not the empty text, or none when every part is empty. */
  function FirstNonEmpty(parts: seq<string>): (r: Option<string>)
    ensures r.None? <==> forall i :: 0 <= i < |parts| ==> parts[i] == ""
    ensures r.Some? ==> r.value != ""
    ensures r.Some? ==>
              exists i :: 0 <= i < |parts| && parts[i] == r.value && forall j :: 0 <= j < i ==> parts[j] == ""
  {
    if |parts| == 0 then None
    else if parts[0] != "" then Some(parts[0])
    else
      var r := FirstNonEmpty(parts[1..]);
      if r.Some? then
        var i :| 0 <= i < |parts[1..]| && parts[1..][i] == r.value && forall j :: 0 <= j < i ==> parts[1..][j] == "";
        assert parts[i + 1] == r.value;
        assert forall j :: 0 <= j < i + 1 ==> parts[j] == "";
        r
      else
        assert forall i :: 0 <= i < |parts| ==> parts[i] == "" by {
          forall i | 0 <= i < |parts| ensures parts[i] == "" {
            if i > 0 { assert parts[i] == parts[1..][i - 1]; }
          }
        }
        r
  }
}

=== FILE: signal_listener.dfy ===
/**
 * The signalling transport's listener (`createListener`): `listen` on a
 * relayed address, `getAddrs` and `close`.
 */
module SignalListener {
  import opened Wrappers
  import opened SignalAddrs

  datatype ListenerEvent = Listening | Close

  /** The address listened on (none until a `listen` succeeds) and the events dispatched. */
  datatype Listener = Listener(addr: Option<Multiaddr>, events: seq<ListenerEvent>)

  function NewListener(): (l: Listener)
    ensures GetAddrs(l) == [] && l.events == []
  {
    Listener(None, [])
  }

  datatype ListenError = NoRelayPeerId | NoRelayConnection | StreamOpenFailed

  datatype Listened = Listened(result: Result<(), ListenError>, listener: Listener)

  /** The relay's text in a listen address: the first non-empty piece around `/p2p-circuit`. */
  function RelayText(addr: Multiaddr): (r: Option<string>)
    ensures r.Some? ==> r.value != "" && !Occurs(r.value, CircuitSep)
    ensures r.Some? && !Occurs(Text(addr), CircuitSep) ==> r.value == Text(addr)
  {
    var parts := Split(Text(addr), CircuitSep);
    SplitPartsSepFree(Text(addr), CircuitSep);
    SplitWithoutSep(Text(addr), CircuitSep);
    FirstNonEmpty(parts)
  }

  /**
   * `listen`: the relay's text must hold a peer id (`peerIdOf`), there must be
   * a connection to that relay (`connectionsTo`), and a signalling stream must
   * open on the first one; only then is the address recorded and `listening`
   * dispatched. Any failure throws and changes nothing.
   */
  function Listen(l: Listener, addr: Multiaddr,
                  peerIdOf: string -> Option<string>,
                  connectionsTo: string -> seq<Connection>): (r: Listened)
    ensures r.result.Err? ==> r.listener == l
    ensures r.result.Ok? ==> r.listener == Listener(Some(addr), l.events + [Listening])
    ensures RelayText(addr).None? || peerIdOf(RelayText(addr).value).None? ==> r.result == Err(NoRelayPeerId)
    ensures r.result.Ok? <==>
              && RelayText(addr).Some?
              && var id := peerIdOf(RelayText(addr).value);
              && id.Some? && |connectionsTo(id.value)| > 0 && connectionsTo(id.value)[0].opensStream
  {
    var relay := RelayText(addr);
    var relayId := if relay.None? then None else peerIdOf(relay.value);
    if relayId.None? then Listened(Err(NoRelayPeerId), l)
    else
      var connections := connectionsTo(relayId.value);
      if |connections| == 0 then Listened(Err(NoRelayConnection), l)
      else if !connections[0].opensStream then Listened(Err(StreamOpenFailed), l)
      else Listened(Ok(()), Listener(Some(addr), l.events + [Listening]))
  }

  /** `getAddrs`: empty until a `listen` succeeds, then the one address listened on. */
  function GetAddrs(l: Listener): (r: seq<Multiaddr>)
    ensures |r| <= 1
    ensures r == [] <==> l.addr.None?
    ensures l.addr.Some? ==> r == [l.addr.value]
  {
    if l.addr.Some? then [l.addr.value] else []
  }

  /** `close`: only dispatches `close`; the address stays. */
  function CloseListener(l: Listener): (r: Listener)
    ensures GetAddrs(r) == GetAddrs(l)
    ensures r.events == l.events + [Close]
  {
    l.(events := l.events + [Close])
  }

  /** `getAddrs` after a `listen`: the new address on success, the old addresses on failure. */
  lemma GetAddrsAfterListen(l: Listener, addr: Multiaddr,
                            peerIdOf: string -> Option<string>,
                            connectionsTo: string -> seq<Connection>)
    ensures var r := Listen(l, addr, peerIdOf, connectionsTo);
            GetAddrs(r.listener) == if r.result.Ok? then [addr] else GetAddrs(l)
  {
  }
}

=== FILE: signal_transport.dfy ===
/**
 * The WebRTC signalling transport (`WebRTCSignal`): its start/stop guard, the
 * relay's per-peer routing of signalling messages, `dial`'s address checks and
 * the abort pre-check and response predicate of `_connect`.
 */
module SignalTransport {
  import opened Wrappers
  import opened SignalAddrs

  // ---- start / stop ----

  /** A call the transport makes on the registrar for the signalling protocol. */
  datatype RegistrarCall = Handle | Unhandle

  datatype Lifecycle = Lifecycle(started: bool, registrar: seq<RegistrarCall>)

  /** The protocol handler is registered when the registrar's last call for it was `handle`. */
  predicate HandlerRegistered(l: Lifecycle)
  {
    |l.registrar| > 0 && l.registrar[|l.registrar| - 1] == Handle
  }

  /** A new transport is not started and has made no registrar call. */
  function NewTransport(): (l: Lifecycle)
    ensures !l.started && !HandlerRegistered(l)
  {
    Lifecycle(false, [])
  }

  /** `start`: once started, a second call returns without registering again. */
  function Start(l: Lifecycle): (r: Lifecycle)
    ensures r.started
    ensures l.started ==> r == l
    ensures !l.started ==> r.registrar == l.registrar + [Handle] && HandlerRegistered(r)
  {
    if l.started then l else Lifecycle(true, l.registrar + [Handle])
  }

  /** `stop` as written: unregisters the handler but leaves the started flag set. */
  function StopAsWritten(l: Lifecycle): (r: Lifecycle)
    ensures r.started == l.started && r.registrar == l.registrar + [Unhandle]
    ensures !HandlerRegistered(r)
  {
    l.(registrar := l.registrar + [Unhandle])
  }

  /** As written, a transport stopped after starting never registers its handler again. */
  lemma RestartAsWrittenLosesHandler(l: Lifecycle)
    requires l.started
    ensures !HandlerRegistered(Start(StopAsWritten(l)))
    ensures !HandlerRegistered(Start(StopAsWritten(Start(NewTransport()))))
  {
  }

  /** `stop` corrected: unregisters the handler and clears the started flag. */
  function Stop(l: Lifecycle): (r: Lifecycle)
    ensures !r.started && r.registrar == l.registrar + [Unhandle]
    ensures !HandlerRegistered(r)
  {
    Lifecycle(false, l.registrar + [Unhandle])
  }

  /** With the corrected `stop`, every start after a stop registers the handler again. */
  lemma RestartRegistersHandler(l: Lifecycle)
    ensures HandlerRegistered(Start(Stop(l)))
    ensures Start(Stop(l)).registrar == l.registrar + [Unhandle, Handle]
  {
  }

  // ---- signalling messages ----

  datatype SignalType = REQUEST | RESPONSE

  datatype SignalMsg = SignalMsg(kind: SignalType, src: string, dst: string, signal: string)

  // ---- the relay's routing table ----

  /**
   * The relay's table from a peer id to the input stream of that peer's
   * signalling stream, and what has been pushed on every input stream ever
   * created (streams replaced in the table keep their contents).
   */
  datatype Routes = Routes(table: map<string, nat>, queues: seq<seq<SignalMsg>>)

  /** Every table entry names an existing stream, and no two peers share one. */
  ghost predicate ValidRoutes(r: Routes)
  {
    && (forall p :: p in r.table ==> r.table[p] < |r.queues|)
    && (forall p, q :: p in r.table && q in r.table && p != q ==> r.table[p] != r.table[q])
  }

  function NoRoutes(): (r: Routes)
    ensures ValidRoutes(r) && r.table == map[]
  {
    Routes(map[], [])
  }

  /** The messages pushed so far to the stream registered for `peer`. */
  function Queue(r: Routes, peer: string): seq<SignalMsg>
  {
    if peer in r.table && r.table[peer] < |r.queues| then r.queues[r.table[peer]] else []
  }

  /**
   * `_handlePeerSignallingStream`: a fresh, empty input stream is created and
   * registered under `peer`, replacing any earlier entry for it.
   */
  function Register(r: Routes, peer: string): (r': Routes)
    requires ValidRoutes(r)
    ensures ValidRoutes(r')
    ensures peer in r'.table && Queue(r', peer) == []
    ensures r'.table.Keys == r.table.Keys + {peer}
    ensures forall p :: p in r.table && p != peer ==> Queue(r', p) == Queue(r, p)
    ensures |r'.queues| == |r.queues| + 1 && r'.queues[..|r.queues|] == r.queues
  {
    Routes(r.table[peer := |r.queues|], r.queues + [[]])
  }

  /**
   * The relay forwarding one incoming message: pushed to the stream registered
   * under its `dst`, dropped when there is none.
   */
  function Route(r: Routes, msg: SignalMsg): (r': Routes)
    requires ValidRoutes(r)
    ensures ValidRoutes(r') && r'.table == r.table
    ensures msg.dst !in r.table ==> r' == r
    ensures msg.dst in r.table ==> Queue(r', msg.dst) == Queue(r, msg.dst) + [msg]
    ensures forall p :: p in r.table && p != msg.dst ==> Queue(r', p) == Queue(r, p)
  {
    if msg.dst in r.table then
      var k := r.table[msg.dst];
      Routes(r.table, r.queues[k := r.queues[k] + [msg]])
    else
      r
  }

  /** The messages among `msgs` addressed to `peer`, in order. */
  function AddressedTo(msgs: seq<SignalMsg>, peer: string): seq<SignalMsg>
  {
    if |msgs| == 0 then []
    else (if msgs[0].dst == peer then [msgs[0]] else []) + AddressedTo(msgs[1..], peer)
  }

  function RouteAll(r: Routes, msgs: seq<SignalMsg>): (r': Routes)
    requires ValidRoutes(r)
    ensures ValidRoutes(r') && r'.table == r.table
    decreases |msgs|
  {
    if |msgs| == 0 then r else RouteAll(Route(r, msgs[0]), msgs[1..])
  }

  lemma RouteAllStep(r: Routes, msgs: seq<SignalMsg>)
    requires ValidRoutes(r) && |msgs| > 0
    ensures RouteAll(r, msgs) == RouteAll(Route(r, msgs[0]), msgs[1..])
  {
  }

  /** One routed message reaches `peer`'s stream exactly when it is addressed to `peer`. */
  lemma RouteReaches(r: Routes, msg: SignalMsg, peer: string)
    requires ValidRoutes(r) && peer in r.table
    ensures Queue(Route(r, msg), peer) == Queue(r, peer) + (if msg.dst == peer then [msg] else [])
  {
  }

  /** Every registered peer receives exactly the messages addressed to it, in arrival order. */
  lemma {:induction false} RouteAllDelivers(r: Routes, msgs: seq<SignalMsg>, peer: string)
    requires ValidRoutes(r) && peer in r.table
    ensures Queue(RouteAll(r, msgs), peer) == Queue(r, peer) + AddressedTo(msgs, peer)
    decreases |msgs|
  {
    if |msgs| > 0 {
      var r1 := Route(r, msgs[0]);
      var mine := if msgs[0].dst == peer then [msgs[0]] else [];
      calc {
        Queue(RouteAll(r, msgs), peer);
      == { RouteAllStep(r, msgs); }
        Queue(RouteAll(r1, msgs[1..]), peer);
      == { RouteAllDelivers(r1, msgs[1..], peer); }
        Queue(r1, peer) + AddressedTo(msgs[1..], peer);
      == { RouteReaches(r, msgs[0], peer); }
        (Queue(r, peer) + mine) + AddressedTo(msgs[1..], peer);
      ==
        Queue(r, peer) + (mine + AddressedTo(msgs[1..], peer));
      ==
        Queue(r, peer) + AddressedTo(msgs, peer);
      }
    }
  }

  // ---- dialling ----

  datatype DialError = NoPeerId | Aborted

  /**
   * `dial` up to the WebRTC handshake: the relay and destination texts must
   * both hold a peer id (`peerIdOf` stands for parsing a multiaddr and taking
   * its peer id), and `_connect` refuses an already-aborted signal. The result
   * is the peer id `_connect` dials.
   */
  function Dial(ma: Multiaddr, aborted: bool, peerIdOf: string -> Option<string>): (r: Result<string, DialError>)
    ensures var (relay, destination) := DialParts(Text(ma));
            && (peerIdOf(relay).None? || peerIdOf(destination).None? ==> r == Err(NoPeerId))
            && (peerIdOf(relay).Some? && peerIdOf(destination).Some? && aborted ==> r == Err(Aborted))
            && (r.Ok? ==> !aborted && peerIdOf(relay).Some? && Some(r.value) == peerIdOf(destination))
            && (peerIdOf(relay).Some? && peerIdOf(destination).Some? && !aborted ==>
                  r == Ok(peerIdOf(destination).value))
  {
    var (relay, destination) := DialParts(Text(ma));
    var relayId := peerIdOf(relay);
    var destinationId := peerIdOf(destination);
    if relayId.None? || destinationId.None? then Err(NoPeerId)
    else if aborted then Err(Aborted)
    else Ok(destinationId.value)
  }

  /**
   * Dialling a relay address followed by `/p2p-webrtc-star` and a destination
   * address: the peer id dialled is the destination's, provided the relay's
   * text also holds one and the signal is not aborted.
   */
  lemma DialRelayedAddress(ma: Multiaddr, relay: Multiaddr, destination: Multiaddr,
                           aborted: bool, peerIdOf: string -> Option<string>)
    requires !Occurs(Text(relay), WebRtcStarSep) && !Occurs(Text(destination), WebRtcStarSep)
    requires Text(ma) == Text(relay) + WebRtcStarSep + Text(destination)
    ensures peerIdOf(Text(relay)).Some? && peerIdOf(Text(destination)).Some? && !aborted ==>
              Dial(ma, aborted, peerIdOf) == Ok(peerIdOf(Text(destination)).value)
    ensures peerIdOf(Text(relay)).None? || peerIdOf(Text(destination)).None? ==>
              Dial(ma, aborted, peerIdOf) == Err(NoPeerId)
  {
    DialPartsOfJoin(Text(relay), Text(destination));
  }

  /** The connection request `_connect` pushes on the signalling stream. */
  function DialRequest(local: string, dialled: string, signal: string): SignalMsg
  {
    SignalMsg(REQUEST, local, dialled, signal)
  }

  /** The response `_connect` waits for: a RESPONSE from the dialled peer to the local one. */
  predicate IsDialResponse(msg: SignalMsg, dialled: string, local: string)
  {
    msg.kind == RESPONSE && msg.src == dialled && msg.dst == local
  }

  /**
   * The dialled peer's answer, sent back with source and destination swapped,
   * is accepted; the request itself, echoed, never is.
   */
  lemma DialResponseMatches(local: string, dialled: string, offer: string, answer: string)
    ensures var request := DialRequest(local, dialled, offer);
            && IsDialResponse(SignalMsg(RESPONSE, request.dst, request.src, answer), dialled, local)
            && !IsDialResponse(request, dialled, local)
  {
  }
}

=== FILE: stream_handler.dfy ===
/**
 * The framed message channel (`StreamHandler`): relay messages written to and
 * read from a raw duplex stream as varint-length-prefixed frames, until the
 * negotiation hands the raw stream back with `rest` or ends it with `close`.
 *
 * A channel is a value: the bytes the remote end has sent and that are not yet
 * consumed, the log of messages written to the remote end, the phase, and the
 * largest frame body the decoder accepts.
 */
module StreamHandler {
  import opened Wrappers
  import opened Varint
  import opened RelayMessage
  import MessageCodec

  /** The decoder's frame body limit when the caller gives none. */
  const DefaultMaxLength: nat := 4096

  /** Framed until `rest` hands the stream back; Closed once the write side has ended. */
  datatype Phase = Framed | Rested | Closed

  datatype Channel = Channel(
    incoming: seq<byte>,
    sent: seq<Message>,
    phase: Phase,
    maxLength: nat)

  /** The raw stream past the handshake: what the remote end sent beyond the consumed frames. */
  datatype Raw = Raw(unread: seq<byte>)

  /**
   * The far end of a stream the local node opens on a connection: either
   * opening the stream fails, or the remote end answers with these bytes and
   * then ends its side.
   */
  datatype Remote = Unreachable | Answers(reply: seq<byte>)

  /** A fresh handler with the default frame limit over a stream that will deliver `reply`. */
  function Open(reply: seq<byte>): (ch: Channel)
    ensures ch.phase == Framed && ch.sent == [] && ch.incoming == reply
    ensures ch.maxLength == 4096
  {
    Channel(reply, [], Framed, DefaultMaxLength)
  }

  // ---- frames on the wire ----

  /** One length-prefixed frame. */
  function Frame(body: seq<byte>): seq<byte>
  {
    Varint.Encode(|body|) + body
  }

  /** The bytes a sequence of written messages puts on the wire, in order. */
  function Wire(ms: seq<Message>): seq<byte>
  {
    if |ms| == 0 then [] else Frame(MessageCodec.Encode(ms[0])) + Wire(ms[1..])
  }

  lemma {:induction false} WireAppend(ms: seq<Message>, m: Message)
    ensures Wire(ms + [m]) == Wire(ms) + Frame(MessageCodec.Encode(m))
    decreases |ms|
  {
    if |ms| == 0 {
      assert ms + [m] == [m];
      assert [m][1..] == [];
    } else {
      assert (ms + [m])[0] == ms[0];
      assert (ms + [m])[1..] == ms[1..] + [m];
      WireAppend(ms[1..], m);
    }
  }

  datatype FrameRead = Body(body: seq<byte>, rest: seq<byte>) | Incomplete | Oversized

  /**
   * The length-prefix decoder: a declared length above `maxLength` is refused as
   * soon as the prefix is read; a stream that ends before the prefix or the body
   * is complete yields no frame.
   */
  function ReadFrame(s: seq<byte>, maxLength: nat): (r: FrameRead)
    ensures r.Body? ==> |r.body| <= maxLength && |r.rest| < |s|
    ensures r.Body? ==> s == s[..|s| - |r.rest|] + r.rest
    ensures |s| == 0 ==> r == Incomplete
  {
    match Varint.Decode(s)
    case None => Incomplete
    case Some((n, rest)) =>
      if n > maxLength then Oversized
      else if |rest| < n then Incomplete
      else Body(rest[..n], rest[n..])
  }

  /** Reading a frame back yields its body, or refuses it when the body is too long. */
  lemma ReadFrameOfFrame(body: seq<byte>, rest: seq<byte>, maxLength: nat)
    ensures ReadFrame(Frame(body) + rest, maxLength)
         == if |body| <= maxLength then Body(body, rest) else Oversized
  {
    assert Frame(body) + rest == Varint.Encode(|body|) + (body + rest);
    Varint.DecodeEncode(|body|, body + rest);
    assert (body + rest)[..|body|] == body;
    assert (body + rest)[|body|..] == rest;
  }

  /** A frame cut short by the end of the stream is not a frame. */
  lemma ReadFrameTruncated(body: seq<byte>, k: nat, maxLength: nat)
    requires |body| <= maxLength
    requires k < |Frame(body)|
    ensures ReadFrame(Frame(body)[..k], maxLength) == Incomplete
  {
    var prefix := Varint.Encode(|body|);
    if k < |prefix| {
      assert Frame(body)[..k] == prefix[..k];
      Varint.TruncatedEncodingIncomplete(|body|, k);
    } else {
      var tail := Frame(body)[..k][|prefix|..];
      assert Frame(body)[..k] == prefix + tail;
      Varint.DecodeEncode(|body|, tail);
    }
  }

  // ---- the handler's operations ----

  datatype StreamError = OpenFailed | FrameTooLong | MalformedFrame

  /** `read`: a message, no message (the stream ended), or a thrown stream error. */
  datatype ReadResult = Got(msg: Message) | NoMessage | ReadFailed(error: StreamError)

  datatype Received = Received(result: ReadResult, channel: Channel)

  /** `write`: one frame holding the encoded message goes out; nothing is read. */
  function Write(ch: Channel, m: Message): (r: Channel)
    requires ch.phase == Framed
    ensures r.phase == Framed && r.incoming == ch.incoming && r.maxLength == ch.maxLength
    ensures r.sent == ch.sent + [m]
    ensures Wire(r.sent) == Wire(ch.sent) + Frame(MessageCodec.Encode(m))
  {
    WireAppend(ch.sent, m);
    ch.(sent := ch.sent + [m])
  }

  /**
   * `read`: decodes the next frame. When the stream ends without a complete
   * frame the handler closes itself and reports no message; an oversized or
   * undecodable frame is thrown as a stream error and leaves the handler as it was.
   */
  function Read(ch: Channel): (r: Received)
    requires ch.phase == Framed
    ensures r.channel.sent == ch.sent && r.channel.maxLength == ch.maxLength
    ensures r.result.Got? ==> r.channel.phase == Framed && |r.channel.incoming| < |ch.incoming|
    ensures r.result.NoMessage? ==> r.channel == Close(ch)
    ensures r.result.ReadFailed? ==> r.channel == ch && r.result.error != OpenFailed
    ensures |ch.incoming| == 0 ==> r == Received(NoMessage, Close(ch))
  {
    match ReadFrame(ch.incoming, ch.maxLength)
    case Incomplete => Received(NoMessage, Close(ch))
    case Oversized => Received(ReadFailed(FrameTooLong), ch)
    case Body(body, rest) =>
      match MessageCodec.Decode(body)
      case None => Received(ReadFailed(MalformedFrame), ch)
      case Some(m) => Received(Got(m), ch.(incoming := rest))
  }

  datatype Handoff = Handoff(channel: Channel, stream: Raw)

  /**
   * `rest`: hands back the raw stream past the consumed frames and invalidates
   * the handler for framed reads and writes.
   */
  function Rest(ch: Channel): (r: Handoff)
    ensures r.stream.unread == ch.incoming
    ensures r.channel.phase != Framed
    ensures r.channel.phase == Closed <==> ch.phase == Closed
    ensures r.channel.sent == ch.sent && r.channel.incoming == ch.incoming
  {
    Handoff(ch.(phase := if ch.phase == Closed then Closed else Rested), Raw(ch.incoming))
  }

  /** `close`: takes the rest stream and ends its write side with no further data. */
  function Close(ch: Channel): (r: Channel)
    ensures r.phase == Closed
    ensures r.sent == ch.sent && r.incoming == ch.incoming && r.maxLength == ch.maxLength
  {
    Rest(ch).channel.(phase := Closed)
  }

  /** `end(msg)`: `write(msg)` then `close()`. */
  function End(ch: Channel, m: Message): (r: Channel)
    requires ch.phase == Framed
    ensures r.phase == Closed
    ensures r.sent == ch.sent + [m] && r.incoming == ch.incoming
  {
    Close(Write(ch, m))
  }

  // ---- the remote end's view ----

  /** The messages a peer reads from `bytes`, frame by frame, until no further frame decodes. */
  function Inbox(bytes: seq<byte>, maxLength: nat): seq<Message>
    decreases |bytes|
  {
    match ReadFrame(bytes, maxLength)
    case Body(body, rest) =>
      (match MessageCodec.Decode(body)
       case Some(m) => [m] + Inbox(rest, maxLength)
       case None => [])
    case _ => []
  }

  /** Every message fits in a frame of at most `maxLength` body bytes. */
  ghost predicate Fits(ms: seq<Message>, maxLength: nat)
  {
    forall i :: 0 <= i < |ms| ==> |MessageCodec.Encode(ms[i])| <= maxLength
  }

  /** Reading a handler's written frames back: the first one is the first message written. */
  lemma ReadWritten(ch: Channel, m: Message, rest: seq<byte>)
    requires ch.phase == Framed
    requires ch.incoming == Frame(MessageCodec.Encode(m)) + rest
    requires |MessageCodec.Encode(m)| <= ch.maxLength
    ensures Read(ch) == Received(Got(m), ch.(incoming := rest))
  {
    ReadFrameOfFrame(MessageCodec.Encode(m), rest, ch.maxLength);
    MessageCodec.DecodeEncode(m);
  }

  /** A frame whose body exceeds the limit is thrown as FrameTooLong before its body is read. */
  lemma ReadOversized(ch: Channel, body: seq<byte>, rest: seq<byte>)
    requires ch.phase == Framed
    requires ch.incoming == Frame(body) + rest
    requires |body| > ch.maxLength
    ensures Read(ch) == Received(ReadFailed(FrameTooLong), ch)
  {
    ReadFrameOfFrame(body, rest, ch.maxLength);
  }

  /** A stream that ends part-way through a frame gives no message and closes the handler. */
  lemma ReadTruncated(ch: Channel, m: Message, k: nat)
    requires ch.phase == Framed
    requires |MessageCodec.Encode(m)| <= ch.maxLength
    requires k < |Frame(MessageCodec.Encode(m))|
    requires ch.incoming == Frame(MessageCodec.Encode(m))[..k]
    ensures Read(ch) == Received(NoMessage, Close(ch))
  {
    ReadFrameTruncated(MessageCodec.Encode(m), k, ch.maxLength);
  }

  /** A peer reading a frame that holds `m` gets `m` first, then whatever follows. */
  lemma InboxFrame(m: Message, rest: seq<byte>, maxLength: nat)
    requires |MessageCodec.Encode(m)| <= maxLength
    ensures Inbox(Frame(MessageCodec.Encode(m)) + rest, maxLength) == [m] + Inbox(rest, maxLength)
  {
    ReadFrameOfFrame(MessageCodec.Encode(m), rest, maxLength);
    MessageCodec.DecodeEncode(m);
  }

  lemma FitsTail(ms: seq<Message>, maxLength: nat)
    requires |ms| > 0 && Fits(ms, maxLength)
    ensures Fits(ms[1..], maxLength) && |MessageCodec.Encode(ms[0])| <= maxLength
  {
    forall i | 0 <= i < |ms[1..]|
      ensures |MessageCodec.Encode(ms[1..][i])| <= maxLength
    {
      assert ms[1..][i] == ms[i + 1];
    }
  }

  /** The first frame on the wire is read as the first message written. */
  lemma InboxWireStep(ms: seq<Message>, maxLength: nat)
    requires |ms| > 0 && Fits(ms, maxLength)
    ensures Inbox(Wire(ms), maxLength) == [ms[0]] + Inbox(Wire(ms[1..]), maxLength)
  {
    FitsTail(ms, maxLength);
    InboxFrame(ms[0], Wire(ms[1..]), maxLength);
  }

  /** Round trip: a peer reading everything a handler wrote gets the same messages in order. */
  lemma {:induction false} InboxWire(ms: seq<Message>, maxLength: nat)
    requires Fits(ms, maxLength)
    ensures Inbox(Wire(ms), maxLength) == ms
    decreases |ms|
  {
    if |ms| > 0 {
      InboxWireStep(ms, maxLength);
      FitsTail(ms, maxLength);
      InboxWire(ms[1..], maxLength);
      assert [ms[0]] + ms[1..] == ms;
    } else {
      assert ReadFrame([], maxLength) == Incomplete;
    }
  }
}

=== FILE: varint.dfy ===
/**
 * Unsigned base-128 varints (the multiformats unsigned-varint, identical to the
 * protobuf varint): the length prefix of every frame on a circuit relay stream.
 */
module Varint {
  import opened Wrappers

  /** One octet of a byte stream. */
  type byte = b: int | 0 <= b < 256

  /**
   * Seven payload bits per byte, least significant group first; every byte but
   * the last has its high bit set.
   */
  function Encode(n: nat): (r: seq<byte>)
    ensures |r| >= 1
    ensures r[|r| - 1] < 128
    ensures forall i :: 0 <= i < |r| - 1 ==> r[i] >= 128
    ensures n < 128 <==> |r| == 1
    decreases n
  {
    if n < 128 then [n] else [n % 128 + 128] + Encode(n / 128)
  }

  /** Every byte of `s` has its high bit set: no varint ends inside `s`. */
  predicate Unterminated(s: seq<byte>)
    decreases |s|
  {
    |s| == 0 || (s[0] >= 128 && Unterminated(s[1..]))
  }

  /**
   * Reads one varint from the front of `s`, returning its value and the bytes
   * after it, or None when `s` ends before a byte without the high bit.
   */
  function Decode(s: seq<byte>): (r: Option<(nat, seq<byte>)>)
    ensures r.Some? ==> |r.value.1| < |s| && r.value.1 == s[|s| - |r.value.1|..]
    ensures r.None? <==> Unterminated(s)
    decreases |s|
  {
    if |s| == 0 then None
    else if s[0] < 128 then Some((s[0], s[1..]))
    else
      match Decode(s[1..])
      case None => None
      case Some((high, rest)) => Some((s[0] - 128 + 128 * high, rest))
  }

  /** Decoding an encoding returns the number and leaves whatever followed it. */
  lemma {:induction false} DecodeEncode(n: nat, rest: seq<byte>)
    ensures Decode(Encode(n) + rest) == Some((n, rest))
    decreases n
  {
    var s := Encode(n) + rest;
    if n < 128 {
      assert s[0] == n;
      assert s[1..] == rest;
    } else {
      assert s[0] == n % 128 + 128;
      assert s[1..] == Encode(n / 128) + rest;
      DecodeEncode(n / 128, rest);
    }
  }

  /** The encoding is injective: two numbers with the same encoding are equal. */
  lemma EncodeInjective(m: nat, n: nat)
    requires Encode(m) == Encode(n)
    ensures m == n
  {
    DecodeEncode(m, []);
    DecodeEncode(n, []);
    assert Encode(m) + [] == Encode(n) + [];
  }

  /** A cut-off encoding never yields a number: the reader needs more bytes. */
  lemma {:induction false} TruncatedEncodingIncomplete(n: nat, k: nat)
    requires k < |Encode(n)|
    ensures Decode(Encode(n)[..k]).None?
    decreases k
  {
    var e := Encode(n);
    if k > 0 {
      assert e[..k][0] == e[0] >= 128;
      assert e[..k][1..] == e[1..][..k - 1];
      assert e[1..] == Encode(n / 128);
      TruncatedEncodingIncomplete(n / 128, k - 1);
    }
  }
}

=== FILE: wrappers.dfy ===
/** `Option` and `Result`, shared by every module of the model. */
module Wrappers {

  /** An optional value: the source's `undefined` / `null`. */
  datatype Option<+T> = None | Some(value: T)

  /** A value or an error: the source's thrown errors and rejected promises. */
  datatype Result<+T, +E> = Ok(value: T) | Err(error: E)
}
